=== FILE: README.md ===
# Truthmark SDK — a Dafny model

This project models the client-side logic of the Truthmark SDK. The SDK
embeds an encrypted provenance payload invisibly into images and finds it
again. The model covers these parts:

- **Detector** (`TruthMarkDetector`): which key a detection uses and which
  candidate blob sizes it tries. It splits an extracted blob into ciphertext
  and integrity hash, and the first size that decrypts and parses decides the
  result. Each detection mode shapes the result in its own way. Copyright
  owner checks, EU AI Act compliance checks and batch key broadcasting are
  included.
- **Embedder** (`TruthMarkEmbedder`): the key order, and the legacy arguments
  that overwrite the configuration. It covers how the payload dictionary is
  assembled and the `ciphertext + hash` blob layout. It also covers the output
  naming rule, the save arguments for each format, the bytes-per-pixel JPEG
  quality estimate, the size-matching binary search over JPEG quality, and
  batch embedding.
- **Integrator** (`TruthMarkIntegrator`): the mandatory-watermark policy, under
  which a required watermark either succeeds or raises. It covers the
  dictionary form of a result, batch padding, the compliance report and
  `watermark_ai_generation`.
- **HTTP clients** in Go, Java and Python: configuration defaults, the
  multipart request each builds (endpoint, form parts, file name,
  Authorization header), and how a response becomes a result or an error. The
  Python client's `output_path` and download rule is included.

Everything outside these decisions is a parameter of the model. That covers
image decoding, DCT extraction, encryption, error correction, JSON parsing,
the clock, UUIDs, hashing, the file system and the network. These are passed
in as functions (an `Env`, a `Crypto`, a `Picture`, a `Transport`). JSON is
modelled as the `Value` datatype in `common.dfy`. Python's truthiness, `or`,
`dict.get`, `str.rstrip` and `pathlib`'s `stem`/`suffix` are written out
explicitly.

Notable behaviour of the code, which the model keeps:

- Only the Go client treats every status other than 200 as an error. The Java
  client accepts any 2xx code. The Python client raises only for 400–599 and
  parses every other body (`ClientComparison`).
- An empty key sends no Authorization header only in Go. Java sends
  `Bearer ` for an empty key, and no header only for a null one (its
  default). Python always sends `Authorization: Bearer <key>`, even for an
  empty key.
- The Python client's default base URL is `https://truthmark-api.onrender.com`.
  It is not the local server the Go and Java clients default to
  (`ClientComparison.DefaultServers`).
- The detector's candidate sizes are not all multiples of 4. Sizes from 1000
  up step by 50, so 1050 is tried (`Detector.CandidatesShape`).
- The size-matching JPEG search can probe and return quality 69, below its
  starting floor of 70. The loop keeps going after its bounds cross
  (`JpegQuality.SearchCanReturn69`).

## Model

| member | source | states |
|---|---|---|
| Common.LastElementUnique | go/truthmark.go:85 | a path has only one last element, so the file-name contracts fix the name |
| Detector.NewDetector | sdk/detector.py:124-137 | the deprecated `universal` flag turns "standard" into "social_media" and changes nothing else; the key is kept |
| Detector.EffectiveKey | sdk/detector.py:165-175 | a non-empty per-call key wins, then the detector's own non-empty key; no key exactly when neither is usable |
| Detector.CandidatesShape | sdk/detector.py:186 | 145 candidate sizes, strictly increasing from 100 to 1950, all even, multiples of 4 below 1000, and 1050 among them |
| Detector.FormulaShape | sdk/detector.py:186 | every size the formula gives lies in [100, 1950] and is even, and below 1000 it is a multiple of 4 |
| Detector.SplitBlob | sdk/detector.py:216-220 | blobs shorter than the 32-byte hash are skipped; otherwise the last 32 bytes are the hash and ciphertext + hash is the blob |
| Detector.SuggestLabel | sdk/detector.py:348-351 | a label exactly when the AI flag is truthy; by tool when the tool is truthy too, the generic label otherwise |
| Detector.BuildResult | sdk/detector.py:311-364 | a detected result with the payload's fields (ai_generated defaulting to False); social media copies the AI flag into both flags and the label; AI compliance takes requires_label from the block's synthetic_content and fails when the block is not a dict; other modes set no AI flags |
| Detector.ComplianceModeReadsBlock | sdk/detector.py:353-357 | in ai_compliance mode a dict block holding synthetic_content is accepted, and that entry becomes requires_label |
| Detector.Attempt | sdk/detector.py:188-247 | a size succeeds exactly when its bits fit the image, something is extracted, the blob is at least 32 bytes, the key opens it and the payload is accepted; the result is the one shaped from that payload, with bits = 8 × size, the decrypted length and confidence 1.0 |
| Detector.FirstSome | sdk/detector.py:188-251 | the loop that returns the first success: nothing exactly when every attempt is empty, otherwise the first non-empty attempt |
| Detector.Search | sdk/detector.py:188-251 | no result exactly when every size fails; otherwise the result of the first size that succeeds, all earlier ones having failed |
| Detector.SearchIgnoresOversizedSizes | sdk/detector.py:192-197 | extraction is never consulted for sizes that do not fit: pictures that agree on fitting sizes give the same outcome |
| Detector.Detect | sdk/detector.py:156-260 | a load error or missing key gives an undetected result with that message; detected exactly when some candidate size succeeds, and then it is the first such size's result; otherwise "No watermark detected or decryption failed" |
| Detector.ActualOwner | sdk/detector.py:432-438 | the first truthy of owner, author, then copyright (default ""); "" for a missing or empty payload |
| Detector.OwnerReport | sdk/detector.py:424-450 | no watermark gives the unverified report; otherwise verified exactly when the expected owner occurs in the actual owner once ASCII letters are lower-cased; the report carries the expected and actual owner, the confidence, truthmark_id, timestamp and the full payload; a non-string owner raises Python's "has no attribute 'lower'" error for its type |
| Detector.VerifyCopyright | sdk/detector.py:422-450 | an image that cannot be loaded gives the unverified report; verified exactly when the key finds a watermark whose string owner contains the expected owner ignoring ASCII case; raises exactly when the found owner is not a string |
| Detector.EmptyOwnerVerifies | sdk/detector.py:440 | an empty expected owner verifies against every detected string owner |
| Detector.ComplianceOf | sdk/detector.py:507-524 | no watermark gives the non-compliant report; otherwise compliant, synthetic_content and model_provider come from the ai_compliance block (empty when the payload is), and ai_generated, ai_tool, timestamp and the full payload from the result; a non-dict block raises Python's "has no attribute 'get'" error for its type |
| Detector.CheckAiCompliance | sdk/detector.py:505-524 | an image that cannot be loaded gives the non-compliant report; otherwise the compliance report of the detected result |
| Detector.ComplianceReadsBlock | sdk/detector.py:514-524 | a detected payload whose ai_compliance entry is a dict is accepted in every mode, and its compliance answer takes eu_ai_act and synthetic_content from that dict |
| Detector.KeysFor | sdk/detector.py:469-476 | one key is repeated for every image, no keys gives None for every image, a list is used as is |
| Detector.DetectBatch | sdk/detector.py:478-482 | results follow the image order, stop at the shorter of images and keys, and each is `detect` with its own key |
| PathNames.Suffix | sdk/embedder.py:277 | a suffix exists only for a last dot that is neither first nor last, and then it is a dot followed by no other dot |
| PathNames.Stem | sdk/embedder.py:277 | stem followed by suffix gives back the name |
| PathNames.WatermarkedName | sdk/embedder.py:277 | the renamed file is 12 characters longer and never equals the original name; a name without a suffix ("photo", ".bashrc", "a.") gains "_watermarked" at its end |
| PathNames.WatermarkedKeepsSuffix | sdk/embedder.py:277 | renaming keeps a real suffix and extends the stem by "_watermarked" |
| PathNames.TrailingDotRename | sdk/embedder.py:277 | a name ending in a dot has no suffix, so "a." becomes "a._watermarked" |
| PathNames.DefaultOutput | sdk/embedder.py:276-277 | the default output lies beside the input under the renamed name and differs from the input |
| PathNames.BatchOutput | sdk/embedder.py:575-576 | a batch output lies in the output directory under the same renamed name |
| Embedder.WithLegacy | sdk/embedder.py:123-128 | each legacy argument overwrites exactly its own field when given |
| Embedder.NewEmbedder | sdk/embedder.py:119-150 | the key is the explicit non-empty key, else the configured non-empty key, else a generated one; legacy arguments apply on top of the given or default configuration |
| Embedder.KeyIsACandidate | sdk/embedder.py:142-150 | the chosen key is always one of the three candidates |
| Embedder.Base | sdk/embedder.py:207-210 | a dict is copied; anything else becomes {"copyright": info} |
| Embedder.AddStamps | sdk/embedder.py:213-223 | exactly the configured stamp keys are added with their values; every other key is unchanged |
| Embedder.MarkAiAct | sdk/embedder.py:226-229 | the ai_compliance block gains eu_ai_act true and synthetic_content from ai_generated and keeps its other entries; fails exactly when an existing entry is not a dict |
| Embedder.MarkAiActBlock | sdk/embedder.py:226-229 | the written block holds eu_ai_act true, synthetic_content from ai_generated (default False) and its earlier entries |
| Embedder.MarkAiActFlags | sdk/embedder.py:227-229 | the two flags of the written block |
| Embedder.StampsKeepLookups | sdk/embedder.py:213-223 | stamping leaves every lookup of a non-stamp key, and its default, unchanged |
| Embedder.AddCustom | sdk/embedder.py:232-233 | custom metadata keys take the custom values; all other keys are unchanged |
| Embedder.Marked | sdk/embedder.py:225-229 | the AI Act step when configured: it adds only ai_compliance and keeps every other key; without the AI Act the payload is unchanged |
| Embedder.BuildPayload | sdk/embedder.py:207-233 | fails exactly when the AI Act is on and the input's existing ai_compliance entry is not a dict; a non-dict copyright never fails |
| Embedder.PayloadSteps | sdk/embedder.py:207-233 | a successful payload is the custom metadata applied to the stamped and marked dictionary |
| Embedder.PayloadContents | sdk/embedder.py:207-233 | the key set is base + stamps + ai_compliance + custom; custom metadata wins; untouched keys are copied |
| Embedder.PayloadKeys | sdk/embedder.py:207-233 | the key set of the payload, and custom metadata overriding every earlier value |
| Embedder.PayloadKeeps | sdk/embedder.py:207-223 | keys that no stamp, AI Act block or custom entry writes keep their copied values |
| Embedder.PayloadStamps | sdk/embedder.py:213-223 | each configured stamp survives unless the custom metadata names the same key |
| Embedder.PayloadAiAct | sdk/embedder.py:226-229 | under the AI Act the payload's block says eu_ai_act true and synthetic_content equal to the input's ai_generated |
| Embedder.PayloadBlockIsMarked | sdk/embedder.py:225-233 | under the AI Act the payload carries the block the AI Act step wrote, unless custom metadata replaces it |
| Embedder.AiActPayloadIsLabelled | sdk/detector.py:353-357 | a payload embedded under the AI Act and detected in ai_compliance mode requires a label exactly as its ai_generated said |
| Embedder.AiActPayloadIsCompliant | sdk/embedder.py:225-229 | a payload embedded under the AI Act, detected in any mode, is reported compliant, with synthetic_content equal to the input's ai_generated |
| Embedder.EmbeddedBlob | sdk/embedder.py:246-248 | the blob is the ciphertext followed by the hash |
| Embedder.BlobRoundTrip | sdk/detector.py:215-220 | the detector's split undoes the embedder's concatenation for a 32-byte hash, and every blob it accepts is such a concatenation |
| Embedder.EmbeddedBlobIsDetected | sdk/detector.py:196-243 | a fitting size whose extraction gives back the embedded ciphertext-plus-hash blob, opened by the key to an accepted payload, is detected with exactly that payload and its extraction info |
| Embedder.CopyIfSet | sdk/embedder.py:405-408 | a setting is copied into the save arguments exactly when it is present and not None |
| Embedder.JpegArgs | sdk/embedder.py:400-408 | format, quality and subsampling (default 0), plus exif and icc_profile exactly when set and not None |
| Embedder.LosslessArgs | sdk/embedder.py:445-450 | format and compress_level (default 6), plus icc_profile exactly when set and not None |
| Embedder.SaveArgs | sdk/embedder.py:396-452 | JPEG gets the JPEG arguments at the searched quality when matching size, else the setting or 85; PNG, or any other format when matching size, gets the lossless arguments; other formats get only format; exif only ever for JPEG |
| Embedder.PlanSave | sdk/embedder.py:285-296 | format-specific save exactly when preservation is on, settings are non-empty and the format is known; with size preservation the arguments carry `optimize` and, for a JPEG only, the quality the size-matching search settles on for the input's size and tolerance, which lies in [69, 95] |
| Embedder.Failure | sdk/embedder.py:318-323 | a failure carries only the key and the message |
| Embedder.Embed | sdk/embedder.py:187-323 | the key is always the embedder's; success exactly when the image loads, settings are detected, the payload builds, sealing and marking complete and the planned save to the output path completes; a load error, a zero-division in settings detection and Python's item-assignment error for a non-dict "ai_compliance" are reported as failures; on success the output path, the payload, and a blob the detector splits back into the sealed ciphertext and hash |
| Embedder.DefaultOutputBesideInput | sdk/embedder.py:276-277 | without an output path a successful embed writes beside the input under the renamed name, never over the input |
| Embedder.InfosFor | sdk/embedder.py:569-570 | a single dict is repeated once per image; a list is used as is |
| Embedder.EmbedBatch | sdk/embedder.py:566-583 | one result per zipped pair, in order, each `embed` with the batch output path when a directory is given |
| Embedder.BatchCoversEveryImage | sdk/embedder.py:569-583 | a single dict covers every image, every result has the key, outputs lie in the directory |
| JpegQuality.EstimateQuality | sdk/embedder.py:363-384 | one of 70, 75, 85, 90, 95; fails exactly for an image without pixels |
| JpegQuality.EstimateMatchesRatio | sdk/embedder.py:372-384 | the integer thresholds agree with the real-valued bytes-per-pixel step function |
| JpegQuality.EstimateMonotone | sdk/embedder.py:375-384 | a larger file of the same pixel count never gets a lower estimate |
| JpegQuality.FormatSettings | sdk/embedder.py:325-361 | configured values win over the defaults (estimated JPEG quality, subsampling 0, PNG level 6, WEBP quality 90); exif and icc_profile appear exactly when metadata is preserved |
| JpegQuality.Narrow | sdk/embedder.py:489-493 | too large moves high below the probe, otherwise low above it and the probe becomes the best; bounds stay in range |
| JpegQuality.MidBounds | sdk/embedder.py:470 | every probe lies in [69, 95] |
| JpegQuality.LastFittingIsLast | sdk/embedder.py:489-495 | the remembered quality is the last probe whose size did not exceed the target, or the default when none did |
| JpegQuality.LastFittingAfter | sdk/embedder.py:489-493 | a probe in front replaces the remembered quality exactly when its size does not exceed the target |
| JpegQuality.SearchBounds | sdk/embedder.py:469-495 | at most n probes, the first in the middle, all probes and the answer in [69, 95] |
| JpegQuality.SearchStopsOnHit | sdk/embedder.py:484-486 | only the last probe can be within tolerance, and then it is the answer |
| JpegQuality.SearchWithoutHit | sdk/embedder.py:469-495 | without a hit every probe is used and the answer is the last fitting probe or the starting best |
| JpegQuality.SearchGuarantees | sdk/embedder.py:454-495 | 1 to 10 probes starting at 82, all within [69, 95]; returns the first hit, else the last fitting probe, else 85 |
| JpegQuality.BinarySearchQuality | sdk/embedder.py:454-495 | with the tolerance target × size_tolerance, the loop returns exactly the reference search's quality and probes |
| JpegQuality.SearchLoop | sdk/embedder.py:464-495 | the loop, with early return on a hit, computes exactly the reference search |
| JpegQuality.SearchStep | sdk/embedder.py:469-495 | one iteration: a hit ends with the probe, otherwise the search continues from the narrowed bounds |
| JpegQuality.SearchCanReturn69 | sdk/embedder.py:465-495 | a size function under which the search answers 69 |
| Integrator.NewIntegrator | sdk/integrator.py:125-128 | settings are kept; a missing or empty version reads "unknown" |
| Integrator.ToolLabel | sdk/integrator.py:211 | the label is the tool, a space, then the version |
| Integrator.ToDict | sdk/integrator.py:52-63 | exactly the eight public keys; neither the image nor the key |
| Integrator.DictOutcome | sdk/integrator.py:52-63 | success, the tool and the failure message (None when there is none) |
| Integrator.DictStamps | sdk/integrator.py:52-63 | the identifier, the timestamp and the metadata of the result |
| Integrator.ToDictHidesSecrets | sdk/integrator.py:52-63 | results differing only in key or image give the same dictionary |
| Integrator.PayloadData | sdk/integrator.py:200-208 | the seven payload keys; falsy metadata and custom_data become {} |
| Integrator.Attempt | sdk/integrator.py:189-240 | succeeds exactly when the image loads, the payload builds and holds truthmark_id and timestamp, the embed completes and its "psnr" (default 0) formats as a number; a success carries the embed's watermarked image, psnr and embedding_locations (default 0), the generated key, the given tool label, the payload's id and timestamp and the payload data as metadata; a failure carries the message of the first step that raised: the loader's, the builder's, the embedder's, the KeyError of the missing key, or the format error for psnr |
| Integrator.NullPsnrFails | sdk/integrator.py:233-238 | a watermark whose info reports a "psnr" of None fails after marking, with the message of `None.__format__` |
| Integrator.EmbedMandatory | sdk/integrator.py:147-263 | a successful result exactly when the steps succeed, and then their result; on a failed step a required integrator raises with that step's message, naming its tool, and an optional one fails softly with the same message and no key, id, image or metadata |
| Integrator.RequiredOnlyChangesFailures | sdk/integrator.py:242-263 | `required` changes only what a failure looks like: successes coincide, and a raise carries the same failure the optional result reports |
| Integrator.Padded | sdk/integrator.py:286-287 | a missing or empty list becomes one None per image; otherwise it is used as is |
| Integrator.FirstErr | sdk/integrator.py:289-296 | the index of the first failing call: every call before it succeeded |
| Integrator.Collect | sdk/integrator.py:289-296 | all values in order exactly when every call succeeds; otherwise the first failure |
| Integrator.BatchCalls | sdk/integrator.py:289-295 | one `embed_mandatory` call per zipped triple, in order |
| Integrator.EmbedBatch | sdk/integrator.py:265-299 | as many results as the shortest padded list, each its own mandatory embed; raises exactly when some call raises, and then with the first such call's failure; only a required integrator raises, and an optional one never does |
| Integrator.BatchWithoutLists | sdk/integrator.py:284-299 | without lists there is one result per image |
| Integrator.ComplianceReport | sdk/integrator.py:314-338 | the report's seven keys |
| Integrator.GeneratorBlock | sdk/integrator.py:317-321 | the tool, its version and the required flag |
| Integrator.WatermarkBlock | sdk/integrator.py:322-328 | the result's id, timestamp, quality and locations with the integrator's strength |
| Integrator.VerificationBlock | sdk/integrator.py:329-335 | the five protections, each claimed true |
| Integrator.ReportBlocks | sdk/integrator.py:317-328 | the report's generator and watermark blocks |
| Integrator.ReportClaims | sdk/integrator.py:315-336 | version 1.0, every protection claimed true, and the result's metadata |
| Integrator.ReportMatchesResult | sdk/integrator.py:314-338 | the report agrees with the result's dictionary on id, timestamp and metadata, claims every protection even for a failed result, and never depends on the key |
| Integrator.WatermarkAiGeneration | sdk/integrator.py:342-375 | succeeds exactly when a required default integrator succeeds, returning that result's watermarked image and key; a raise is embed_mandatory's own failure; the unsuccessful-result check cannot fire |
| Http.Form | go/truthmark.go:84-96 | the file part first, then the message field exactly when encoding |
| GoClient.NewClient | go/truthmark.go:50-69 | nil config gives localhost and 30 s; a zero timeout becomes 30 s; other fields are kept |
| GoClient.NewClientIdempotent | go/truthmark.go:50-69 | building from a client's own settings gives the same client |
| GoClient.Base | go/truthmark.go:85 | "." for the empty path, "/" for slashes only, otherwise the last element of the path once trailing slashes are removed ("photos/cat.png" gives "cat.png") |
| GoClient.BuildRequest | go/truthmark.go:80-110 | POST to base + endpoint with the multipart type; Authorization exactly when the key is non-empty |
| GoClient.DecodeBody | go/truthmark.go:123-127 | an object or null decodes; anything else is a decode error |
| GoClient.Call | go/truthmark.go:72-130 | an unopenable file sends nothing and fails; a transport error fails with its message; a 200 response is the decoded body; any other status is an API error with that status |
| GoClient.EncodeDecodeDiffer | go/truthmark.go:133-185 | decode sends the same headers and parts minus the message, to a different URL |
| JavaClient.DefaultConfig | java/src/main/java/com/truthmark/sdk/TruthMarkClient.java:20-24 | localhost, no key, 30 seconds |
| JavaClient.NewClient | java/src/main/java/com/truthmark/sdk/TruthMarkClient.java:47-55 | the three settings are copied unchanged |
| JavaClient.NoArgClient | java/src/main/java/com/truthmark/sdk/TruthMarkClient.java:43-45 | the no-argument client uses the defaults |
| JavaClient.FileName | java/src/main/java/com/truthmark/sdk/TruthMarkClient.java:72 | the last name of the path once trailing separators are dropped ("photos/cat.png" gives "cat.png", the root gives "") |
| JavaClient.BuildRequest | java/src/main/java/com/truthmark/sdk/TruthMarkClient.java:70-83 | POST to base + endpoint; Authorization exactly when the key is non-null |
| JavaClient.EmptyKeyIsSent | java/src/main/java/com/truthmark/sdk/TruthMarkClient.java:81-83 | an empty key is sent as "Bearer " |
| JavaClient.FromJson | java/src/main/java/com/truthmark/sdk/TruthMarkClient.java:90-91 | an empty body or null gives null, an object gives a result, anything else throws |
| JavaClient.Call | java/src/main/java/com/truthmark/sdk/TruthMarkClient.java:64-93 | a missing file sends nothing and fails; a transport error fails with its message, before an unreadable file is noticed; an unreadable file on a working connection fails; a non-2xx status throws with that status; any 2xx response is its parsed body |
| PyClient.NewClient | python/truthmark_sdk/client.py:11-23 | trailing slashes are stripped and nothing else; the bearer header is always set |
| PyClient.NewDefaultClient | python/truthmark_sdk/client.py:11-23 | without a base URL the client talks to https://truthmark-api.onrender.com with the bearer header of the key |
| PyClient.NewClientIdempotent | python/truthmark_sdk/client.py:19 | rebuilding from the stored URL changes nothing |
| PyClient.FileName | python/truthmark_sdk/client.py:42-47 | the last element of the path ("photos/cat.png" gives "cat.png"); the field name "file" for an empty path, one like "<...>", or one ending in '/' |
| PyClient.BuildRequest | python/truthmark_sdk/client.py:40-47 | POST to base + endpoint with the client's headers, the message field before the file part |
| PyClient.DataFirstForm | python/truthmark_sdk/client.py:40-47 | the file part alone when decoding; the message field, then the file part, when encoding |
| PyClient.DataFirstFormReorders | python/truthmark_sdk/client.py:40-47 | the same parts as the Go and Java form, with the message moved in front of the file |
| PyClient.AlwaysSendsBearer | python/truthmark_sdk/client.py:21-23 | every request carries the bearer header, whatever the key |
| PyClient.Receive | python/truthmark_sdk/client.py:48-49 | 400–599 raise; otherwise the parsed body, and an unparsable body fails |
| PyClient.HasDownloadUrl | python/truthmark_sdk/client.py:52 | membership in a dict's keys, a list's items or a string's substrings; anything else raises |
| PyClient.AfterResponse | python/truthmark_sdk/client.py:52-56 | a download starts exactly for an object with download_url and a truthy output path, and output_path is then recorded; list and string hits raise |
| PyClient.Post | python/truthmark_sdk/client.py:37-59 | a missing or unopenable file sends nothing; then the transport and the status check |
| PyClient.Encode | python/truthmark_sdk/client.py:25-59 | the request of `Post` with the message, then the output-path rule on success |
| PyClient.Decode | python/truthmark_sdk/client.py:61-85 | the same request to the decode endpoint with only the file part |
| PyClient.EncodeWithoutOutputPath | python/truthmark_sdk/client.py:51-56 | without an output path the server's answer is returned unchanged and nothing is downloaded |
| PyClient.DownloadIffRecorded | python/truthmark_sdk/client.py:51-56 | a download happens exactly for an object with download_url and a given path, and then output_path names that path, all else unchanged |
| PyClient.EncodeRunsAfterResponse | python/truthmark_sdk/client.py:48-59 | after a successful request, encode's outcome is what the output-path step makes of the response |
| PyClient.ListWithDownloadUrlRaises | python/truthmark_sdk/client.py:52-53 | a list holding "download_url" makes encode with an output path raise |
| ClientComparison.NoContentHandledThreeWays | go/truthmark.go:119-127 | on 204 Go reports a status error, Java a null result, Python a parse error |
| ClientComparison.GoNoContent | go/truthmark.go:119-121 | a 204 is a status error for the Go client |
| ClientComparison.JavaNoContent | java/src/main/java/com/truthmark/sdk/TruthMarkClient.java:86-91 | a 204 with no body gives the Java client a null result |
| ClientComparison.PyNoContent | python/truthmark_sdk/client.py:48-49 | a 204 with no body fails the Python client's JSON parse |
| ClientComparison.RedirectOnlyParsedByPython | python/truthmark_sdk/client.py:48-49 | a 302 body is parsed only by the Python client |
| ClientComparison.EmptyKeyHandling | go/truthmark.go:108-110 | with an empty key Go sends no header, while Java and Python send "Bearer " |
| ClientComparison.DefaultServers | python/truthmark_sdk/client.py:11 | the Go and Java defaults are the local server http://localhost:8000, the Python default the hosted API |

## Left out

- Image decoding, colour conversion, the DCT bit extraction and embedding, `_select_embedding_locations` and `_extract_bits_from_dct`: these are numeric image processing. They are parameters (`Picture.extract`, `Env.mark`).
- Encryption, decryption, error correction and the integrity hash: `CryptoEngine` and `ErrorCorrection` are not part of this model. They are the `Crypto` and `Env.seal` parameters, and error-correction settings are not represented.
- JSON serialisation and parsing: payloads are already-parsed `Value`s. A server body is `Parsed`, `Empty` or `Malformed`.
- `TruthMarkConfig`, its presets, `validate` and `optimize_for_priority` are not part of this model. The embedder takes the resulting configuration as given, and `NewEmbedder` assumes those calls leave the modelled fields unchanged.
- The saliency detector, `_find_optimal_strength` and `adaptive_strength`: the strength they choose only feeds the watermarking oracle.
- `EmbedResult` fields that are not modelled:
  - `embedding_info` is the info dict of the watermarking oracle;
  - `image` is the watermarked pixel array;
  - `original_format` and `original_size` are the input's format and size, held in `Source`;
  - `output_format` is `Image.open(output_path).format` of the saved file;
  - `output_size` is the size of the saved file;
  - `size_match` is the output size divided by the input size, or 0.0 for an empty input.

  All of them come from the image-processing oracles or from reading the saved file back.
- Embedder.Embed: the two reads after saving (`os.path.getsize` and `Image.open` of the output) are taken to succeed once the save has. A failure there would turn the call into a failure, which the model does not show.
- The `.temp.jpg` files of the size-matching search: each probe's encoded size is the `SizeAt` parameter.
- `scan_upload` is `detect` with the same arguments, so it has no separate member.
- Detector lines 262–303 follow an unconditional `return` and are never reached.
- `__str__` of the result classes and the log messages are presentation only, with one exception. The integrator's success log formats "psnr" with `.2f`, and that can raise; `Integrator.Attempt` models it.
- `PayloadBuilder.build`, the image loader and `generate_key` of the integrator are the `Env` parameters `build`, `image` and `key`. The clock is `now` / `failedAt`.
- Embedder.Base: a copied dict shares its nested dicts with the caller in Python, so the AI Act block written into an existing nested "ai_compliance" also changes the caller's dict. Values are immutable here, so that aliasing is not modelled.
- The HTTP transport, timeouts and OkHttp/`net/http` connection handling are the `Transport` parameter. Timeouts are stored but have no effect.
- JavaClient.BuildRequest: OkHttp rejects a malformed URL (including "null/v1/encode" from a null base URL) with an unchecked exception before sending. The model only records the URL it would use.
- GoClient.DecodeBody: Go decodes into typed structs, so a field of the wrong JSON type is also an error. The model checks only the top-level shape.
- The Python client's `_download_image` is represented by the (URL, path) pair a download is started with. Its failure is swallowed by the source and has no effect on the result.
- The demo script, `setup.py` and packaging files have no behaviour to model.
- Detector.OwnerReport: `str.lower` folds Unicode letters (and can change a string's length, as for "İ"), but the model lower-cases ASCII letters only. Owners that differ only in the case of non-ASCII letters verify in Python and not in the model.
- Detector.VerifyCopyright: inherits the ASCII-only case folding of `Detector.OwnerReport`.
- JpegQuality.BinarySearchQuality: the tolerance `original_size * size_tolerance` and the comparisons against it are exact `real` arithmetic, not IEEE doubles. Products that round across a size boundary can decide a probe differently. `Embedder.PlanSave` uses the same tolerance.
- GoClient.Call: `http.NewRequest` fails for a base URL it cannot parse (go/truthmark.go:102-105, 157-160). The model always builds the request and sends it.
- JavaClient.FromJson: Gson throws when a field has the wrong JSON type (a string where an object is declared, say). The model checks only the top-level shape.
- GoClient.NewClient: Go writes the default timeout back into the caller's `*Config` (go/truthmark.go:58-60). The model returns the client and does not model the change to the caller's value.
- Embedder.NewEmbedder: the legacy `strength`, `target_psnr` and `use_ai_saliency` arguments overwrite fields of the caller's configuration object itself (sdk/embedder.py:123-128). The model returns the new configuration and leaves the caller's unchanged.
- JpegQuality.EstimateQuality: Python divides `file_size / pixels` as a double, and the model compares the exact ratio. Above about 2^52 pixels the rounded ratio can land on a threshold. For example, a file size of 2p + 1 gives 90 in Python and 95 in the model.

=== FILE: client_comparison.dfy ===
/** Where the three clients part ways on the same input: which response
    codes they accept, and whether an empty API key is sent. */
module ClientComparison {
  import opened Common
  import opened Http
  import GoClient
  import JavaClient
  import PyClient

  /** Built without settings, the Go and Java clients talk to the same local
      server, while the Python client talks to the hosted API. */
  lemma DefaultServers(apiKey: string)
    ensures GoClient.NewClient(None).baseUrl == "http://localhost:8000"
    ensures JavaClient.NewClient(JavaClient.DefaultConfig()).baseUrl == Some("http://localhost:8000")
    ensures PyClient.NewDefaultClient(apiKey).baseUrl == "https://truthmark-api.onrender.com"
  {
  }

  /** A server that answers every request with "204 No Content". */
  function NoContent(r: Request): Result<Response, string> {
    Ok(Response(204, Empty))
  }

  /** On a 204 the Go client reports a status error, the Java client
      returns a null result, and the Python client fails to parse the empty
      body. */
  lemma NoContentHandledThreeWays(gc: GoClient.Client, jc: JavaClient.Client, pc: PyClient.Client,
                                  path: string, message: Option<string>, boundary: string)
    ensures GoClient.Call(gc, path, message, boundary, Readable, NoContent).result == Err(StatusFailed(204))
    ensures JavaClient.Call(jc, path, message, Readable, NoContent).result == Ok(None)
    ensures PyClient.Post(pc, path, message, Readable, NoContent).result == Err(ParseFailed)
  {
    GoNoContent(gc, path, message, boundary);
    JavaNoContent(jc, path, message);
    PyNoContent(pc, path, message);
  }

  lemma GoNoContent(c: GoClient.Client, path: string, message: Option<string>, boundary: string)
    ensures GoClient.Call(c, path, message, boundary, Readable, NoContent).result == Err(StatusFailed(204))
  {
    var req := GoClient.BuildRequest(c, path, message, boundary);
    var o := GoClient.Call(c, path, message, boundary, Readable, NoContent);
    assert o.sent == Some(req);
    assert NoContent(req) == Ok(Response(204, Empty));
  }

  lemma JavaNoContent(c: JavaClient.Client, path: string, message: Option<string>)
    ensures JavaClient.Call(c, path, message, Readable, NoContent).result == Ok(None)
  {
    assert NoContent(JavaClient.BuildRequest(c, path, message)) == Ok(Response(204, Empty));
  }

  lemma PyNoContent(c: PyClient.Client, path: string, message: Option<string>)
    ensures PyClient.Post(c, path, message, Readable, NoContent).result == Err(ParseFailed)
  {
    assert NoContent(PyClient.BuildRequest(c, path, message)) == Ok(Response(204, Empty));
  }

  /** A 302 that reached the client is parsed only by the Python client,
      which raises just for 4xx and 5xx. */
  lemma RedirectOnlyParsedByPython(gc: GoClient.Client, jc: JavaClient.Client, pc: PyClient.Client,
                                   path: string, message: Option<string>, boundary: string, v: Value)
    ensures var send := (r: Request) => Ok(Response(302, Parsed(v)));
      && GoClient.Call(gc, path, message, boundary, Readable, send).result == Err(StatusFailed(302))
      && JavaClient.Call(jc, path, message, Readable, send).result == Err(StatusFailed(302))
      && PyClient.Post(pc, path, message, Readable, send).result == Ok(v)
  {
  }

  /** With an empty key, Go sends no Authorization header, while Java (given
      an empty, non-null key) and Python send "Bearer " with nothing after it. */
  lemma EmptyKeyHandling(baseUrl: string, timeout: int, path: string, message: Option<string>, boundary: string)
    ensures AUTHORIZATION !in
      GoClient.BuildRequest(GoClient.NewClient(Some(GoClient.Config(baseUrl, "", timeout))), path, message, boundary).headers
    ensures SendsBearer(JavaClient.BuildRequest(
      JavaClient.NewClient(JavaClient.Config(Some(baseUrl), Some(""), timeout)), path, message), "")
    ensures SendsBearer(PyClient.BuildRequest(PyClient.NewClient("", baseUrl), path, message), "")
  {
  }
}

=== FILE: common.dfy ===
/** Shared vocabulary of the model: optional values, results, byte strings,
    already-parsed JSON values, Python truthiness, and the few string
    operations the SDK relies on (`str.lower`, `in` on strings, `rstrip`). */
module Common {

  type Byte = x: int | 0 <= x < 256
  type Bytes = seq<Byte>

  datatype Option<+T> = None | Some(value: T)

  datatype Result<+T, +E> = Ok(value: T) | Err(error: E)

  /** A JSON object as Python's `json.loads` returns it. */
  type Object = map<string, Value>

  /** An already-parsed JSON value. `Null` is Python's `None`. */
  datatype Value =
    | Null
    | Bool(b: bool)
    | Int(i: int)
    | Num(r: real)
    | Str(s: string)
    | List(items: seq<Value>)
    | Obj(fields: Object)

  /** The name of the Python type `json.loads` gives a value, as exception
      messages spell it. */
  function TypeName(v: Value): string {
    match v
    case Null => "NoneType"
    case Bool(_) => "bool"
    case Int(_) => "int"
    case Num(_) => "float"
    case Str(_) => "str"
    case List(_) => "list"
    case Obj(_) => "dict"
  }

  /** The `AttributeError` message for `v.attr` when `v`'s type has no such
      method. */
  function AttributeError(v: Value, attr: string): string {
    "'" + TypeName(v) + "' object has no attribute '" + attr + "'"
  }

  /** Python truthiness of a JSON value (`if v:`). */
  predicate Truthy(v: Value) {
    match v
    case Null => false
    case Bool(b) => b
    case Int(i) => i != 0
    case Num(r) => r != 0.0
    case Str(s) => s != ""
    case List(items) => |items| > 0
    case Obj(fields) => |fields| > 0
  }

  /** Python's `a or b`: the first operand when it is truthy, else the second. */
  function Or(a: Value, b: Value): Value {
    if Truthy(a) then a else b
  }

  /** Python's `d.get(k)`: a missing key reads as `None`. */
  function Get(m: Object, k: string): Value {
    if k in m then m[k] else Null
  }

  /** Python's `d.get(k, default)`: the default only when the key is missing. */
  function GetOr(m: Object, k: string, default: Value): Value {
    if k in m then m[k] else default
  }

  /** Python's `str.lower()` restricted to ASCII letters. */
  function LowerChar(c: char): char {
    if 'A' <= c <= 'Z' then (c as int + 32) as char else c
  }

  function Lower(s: string): (r: string)
    ensures |r| == |s|
    ensures forall i :: 0 <= i < |s| ==> r[i] == LowerChar(s[i])
  {
    seq(|s|, i requires 0 <= i < |s| => LowerChar(s[i]))
  }

  /** `needle` occurs in `hay` starting at position `i`. */
  predicate OccursAt(hay: string, needle: string, i: int) {
    0 <= i && i + |needle| <= |hay| && hay[i..i + |needle|] == needle
  }

  /** Python's `needle in hay` on strings, computed by scanning `hay` from the left.
      Its contract is the positional definition: some occurrence exists. */
  function Contains(hay: string, needle: string): (r: bool)
    ensures r <==> exists i :: OccursAt(hay, needle, i)
    decreases |hay|
  {
    if needle <= hay then
      assert OccursAt(hay, needle, 0);
      true
    else if |hay| == 0 then
      assert forall i :: !OccursAt(hay, needle, i);
      false
    else
      var rest := Contains(hay[1..], needle);
      assert forall i :: OccursAt(hay[1..], needle, i) <==> OccursAt(hay, needle, i + 1) by {
        forall i
          ensures OccursAt(hay[1..], needle, i) <==> OccursAt(hay, needle, i + 1)
        {
          if 0 <= i && i + |needle| <= |hay[1..]| {
            assert hay[1..][i..i + |needle|] == hay[i + 1..i + 1 + |needle|];
          }
        }
      }
      assert !OccursAt(hay, needle, 0) by {
        if |needle| <= |hay| {
          assert hay[0..|needle|] == hay[..|needle|];
        }
      }
      if rest then
        var j :| OccursAt(hay[1..], needle, j);
        assert OccursAt(hay, needle, j + 1);
        true
      else
        assert forall i :: OccursAt(hay, needle, i) ==> OccursAt(hay[1..], needle, i - 1);
        false
  }

  /** The empty string occurs in every string, so `"" in s` always holds. */
  lemma EmptyIsContained(hay: string)
    ensures Contains(hay, "")
  {
    assert OccursAt(hay, "", 0);
  }

  /** Python's `s.rstrip(c)` for a single character `c`. */
  function RStrip(s: string, c: char): (r: string)
    ensures r <= s
    ensures |r| == 0 || r[|r| - 1] != c
    ensures forall i :: |r| <= i < |s| ==> s[i] == c
    decreases |s|
  {
    if |s| > 0 && s[|s| - 1] == c then RStrip(s[..|s| - 1], c) else s
  }

  /** Stripping twice strips nothing more. */
  lemma RStripIdempotent(s: string, c: char)
    ensures RStrip(RStrip(s, c), c) == RStrip(s, c)
  {
  }

  /** Position of the last `c` in `s`, or -1 (Python's `str.rfind`). */
  function LastIndex(s: string, c: char): (r: int)
    ensures -1 <= r < |s|
    ensures r == -1 <==> forall j :: 0 <= j < |s| ==> s[j] != c
    ensures r >= 0 ==> s[r] == c
    ensures forall j :: r < j < |s| ==> s[j] != c
    decreases |s|
  {
    if |s| == 0 then -1
    else if s[|s| - 1] == c then |s| - 1
    else LastIndex(s[..|s| - 1], c)
  }

  /** An occurrence with none after it is the last one. */
  lemma LastIndexUnique(s: string, c: char, k: int)
    requires 0 <= k < |s| && s[k] == c
    requires forall j :: k < j < |s| ==> s[j] != c
    ensures LastIndex(s, c) == k
  {
  }

  /** `name` is the last `c`-separated element of `s`: a tail of `s` without
      `c` that starts at the beginning of `s` or right after a `c`. */
  predicate LastElement(s: string, c: char, name: string) {
    && |name| <= |s|
    && s[|s| - |name|..] == name
    && (|name| == |s| || s[|s| - |name| - 1] == c)
    && forall j :: 0 <= j < |name| ==> name[j] != c
  }

  /** A string has only one last element. */
  lemma LastElementUnique(s: string, c: char, a: string, b: string)
    requires LastElement(s, c, a) && LastElement(s, c, b)
    ensures a == b
  {
    if |a| < |b| {
      assert false;
    } else if |b| < |a| {
      assert false;
    }
  }

  /** What follows the last `c` in `s`, or all of `s` when there is none. */
  function AfterLast(s: string, c: char): (r: string)
    ensures LastElement(s, c, r)
  {
    var k := LastIndex(s, c) + 1;
    assert |s[k..]| == |s| - k;
    s[k..]
  }

  function Min(a: int, b: int): int {
    if a <= b then a else b
  }
}

=== FILE: detector.dfy ===
/** The decision logic of the SDK's detector (`TruthMarkDetector`): which
    payload sizes are tried, how an extracted blob is split into ciphertext
    and integrity hash, "first size that decodes wins", how the result is
    shaped by the detection mode, copyright-owner verification, AI-Act
    compliance checks and batch key broadcasting.

    Reading the image, the DCT bit extraction and the decrypt / error
    correction / JSON parsing chain are oracles: a `Picture` knows what bytes
    come back for a given payload size, and a `Crypto` function says what a
    key opens a (ciphertext, hash) pair to. */
module Detector {
  import opened Common

  const STANDARD := "standard"
  const SOCIAL_MEDIA := "social_media"
  const COPYRIGHT := "copyright"
  const AI_COMPLIANCE := "ai_compliance"

  /** Length of the integrity hash appended to every embedded blob. */
  const HASH_LEN := 32

  /** Mid-frequency DCT coefficients used per 8x8 block. */
  const BITS_PER_BLOCK := 15

  const NO_KEY_MESSAGE := "No decryption key provided. Cannot detect watermark without key."
  const NOT_FOUND_MESSAGE := "No watermark detected or decryption failed"

  /** A detector: its mode and its own key (possibly none). */
  datatype Detector = Detector(mode: string, key: Option<string>)

  /** A loaded image: its size, and the bytes the extractor reads back when it
      assumes a blob of `size` bytes was embedded (`None` when extraction raises). */
  datatype Picture = Picture(height: nat, width: nat, extract: nat -> Option<Bytes>)

  /** What decrypting, error-correcting and parsing a blob produced. */
  datatype Opened = Opened(plaintext: Bytes, payload: Value)

  /** Decrypt-then-parse with a key; `None` when any step raises. */
  type Crypto = (string, Bytes, Bytes) -> Option<Opened>

  datatype ExtractInfo = ExtractInfo(bitsExtracted: nat, payloadSize: nat, confidence: real)

  /** The label a social-media platform is told to show. Its text is
      "⚠️ AI Generated by <tool>" or "⚠️ AI Generated Content". */
  datatype Label = GeneratedBy(tool: Value) | GeneratedContent

  datatype DetectResult = DetectResult(
    detected: bool,
    confidence: real,
    payload: Option<Object>,
    errorMessage: Option<string>,
    extractionInfo: Option<ExtractInfo>,
    copyright: Value,
    author: Value,
    aiTool: Value,
    aiGenerated: Value,
    truthmarkId: Value,
    timestamp: Value,
    isAiGenerated: Value,
    requiresLabel: Value,
    suggestedLabel: Option<Label>)

  /** Text of a label whose tool is a string. */
  function LabelText(l: Label): Option<string> {
    match l
    case GeneratedContent => Some("\U{26A0}\U{FE0F} AI Generated Content")
    case GeneratedBy(Str(tool)) => Some("\U{26A0}\U{FE0F} AI Generated by " + tool)
    case GeneratedBy(_) => None
  }

  /** A negative result carrying only a message. */
  function Undetected(message: string): DetectResult {
    DetectResult(false, 0.0, None, Some(message), None,
                 Null, Null, Null, Bool(false), Null, Null, Bool(false), Bool(false), None)
  }

  // ---------------------------------------------------------------------
  // Construction

  /** `TruthMarkDetector(key, mode, universal=...)`: the deprecated `universal`
      flag turns the standard mode into the social-media mode, nothing else. */
  function NewDetector(key: Option<string>, mode: string, universal: bool): (d: Detector)
    ensures d.key == key
    ensures universal && mode == STANDARD ==> d.mode == SOCIAL_MEDIA
    ensures !(universal && mode == STANDARD) ==> d.mode == mode
  {
    Detector(if universal && mode == STANDARD then SOCIAL_MEDIA else mode, key)
  }

  /** A key is usable only when it is present and non-empty (`if key:`). */
  predicate Usable(k: Option<string>) {
    k.Some? && k.value != ""
  }

  /** The key a `detect` call decrypts with: a usable per-call key wins,
      otherwise the detector's own key if usable, otherwise none. */
  function EffectiveKey(d: Detector, perCall: Option<string>): (k: Option<string>)
    ensures k.None? <==> !Usable(perCall) && !Usable(d.key)
    ensures Usable(perCall) ==> k == perCall
    ensures !Usable(perCall) && Usable(d.key) ==> k == d.key
    ensures k.Some? ==> k.value != ""
  {
    if Usable(perCall) then perCall
    else if Usable(d.key) then d.key
    else None
  }

  // ---------------------------------------------------------------------
  // Candidate payload sizes

  /** Python's `range(lo, hi, step)` for a positive step: the values
      `lo + i * step` below `hi`, in increasing order. */
  function Range(lo: nat, hi: nat, step: nat): seq<nat>
    requires step > 0
  {
    var n := if lo < hi then (hi - lo + step - 1) / step else 0;
    seq(n, i requires 0 <= i < n => lo + i * step)
  }

  /** Every candidate total blob size (ciphertext plus hash), in the order tried. */
  function Candidates(): seq<nat> {
    Range(100, 500, 4) + Range(500, 1000, 20) + Range(1000, 2000, 50)
  }

  predicate StrictlyIncreasing(s: seq<nat>) {
    forall i, j :: 0 <= i < j < |s| ==> s[i] < s[j]
  }

  /** Closed form of the i-th candidate size. */
  function CandidateFormula(i: nat): nat {
    if i < 100 then 100 + 4 * i
    else if i < 125 then 500 + 20 * (i - 100)
    else 1000 + 50 * (i - 125)
  }

  lemma CandidatesClosedForm()
    ensures |Candidates()| == 145
    ensures forall i :: 0 <= i < 145 ==> Candidates()[i] == CandidateFormula(i)
  {
    var a, b, c := Range(100, 500, 4), Range(500, 1000, 20), Range(1000, 2000, 50);
    var s := Candidates();
    assert s == a + b + c;
    assert |a| == 100 && |b| == 25 && |c| == 20;
    forall i | 0 <= i < 145
      ensures s[i] == CandidateFormula(i)
    {
      if i < 100 {
        assert s[i] == a[i];
      } else if i < 125 {
        assert s[i] == b[i - 100];
      } else {
        assert s[i] == c[i - 125];
      }
    }
  }

  /** The candidate list: 145 sizes, strictly increasing, from 100 to 1950,
      all even, and multiples of 4 below 1000. Sizes of 1000 and more step by
      50, so 1050 is tried although it is not a multiple of 4. */
  lemma CandidatesShape()
    ensures |Candidates()| == 145
    ensures StrictlyIncreasing(Candidates())
    ensures Candidates()[0] == 100 && Candidates()[144] == 1950
    ensures forall i :: 0 <= i < 145 ==> 100 <= Candidates()[i] <= 1950
    ensures forall i :: 0 <= i < 145 ==> Candidates()[i] % 2 == 0
    ensures forall i :: 0 <= i < 145 && Candidates()[i] < 1000 ==> Candidates()[i] % 4 == 0
    ensures Candidates()[126] == 1050 && 1050 % 4 != 0
  {
    CandidatesClosedForm();
    var s := Candidates();
    forall i | 0 <= i < 145
      ensures 100 <= s[i] <= 1950 && s[i] % 2 == 0 && (s[i] < 1000 ==> s[i] % 4 == 0)
    {
      FormulaShape(i);
    }
    forall i, j | 0 <= i < j < 145
      ensures s[i] < s[j]
    {
      assert CandidateFormula(i) < CandidateFormula(j);
    }
    assert s[126] == CandidateFormula(126);
  }

  /** Each closed-form size is in range and even, and a multiple of 4 below
      1000. */
  lemma FormulaShape(i: nat)
    requires i < 145
    ensures var size := CandidateFormula(i);
      100 <= size <= 1950 && size % 2 == 0 && (size < 1000 ==> size % 4 == 0)
  {
    if i < 100 {
      assert CandidateFormula(i) == 4 * (25 + i);
    } else if i < 125 {
      assert CandidateFormula(i) == 4 * (125 + 5 * (i - 100));
    } else {
      assert CandidateFormula(i) == 2 * (500 + 25 * (i - 125));
    }
  }

  /** Bits an image of the given size can carry: 15 per whole 8x8 block. */
  function Capacity(height: nat, width: nat): nat {
    (height / 8) * (width / 8) * BITS_PER_BLOCK
  }

  /** A size is tried only if its bits fit into the image. */
  predicate Fits(size: nat, height: nat, width: nat) {
    size * 8 <= Capacity(height, width)
  }

  // ---------------------------------------------------------------------
  // Blob split

  /** Splits an extracted blob into (ciphertext, hash); blobs shorter than the
      hash are skipped. */
  function SplitBlob(data: Bytes): (r: Option<(Bytes, Bytes)>)
    ensures r.None? <==> |data| < HASH_LEN
    ensures r.Some? ==> |r.value.1| == HASH_LEN && r.value.0 + r.value.1 == data
  {
    if |data| < HASH_LEN then None
    else Some((data[..|data| - HASH_LEN], data[|data| - HASH_LEN..]))
  }

  // ---------------------------------------------------------------------
  // Result shaping

  /** The label suggested in social-media mode. */
  function SuggestLabel(aiGenerated: Value, aiTool: Value): (l: Option<Label>)
    ensures l.Some? <==> Truthy(aiGenerated)
    ensures Truthy(aiGenerated) && Truthy(aiTool) ==> l == Some(GeneratedBy(aiTool))
    ensures Truthy(aiGenerated) && !Truthy(aiTool) ==> l == Some(GeneratedContent)
  {
    if Truthy(aiGenerated) && Truthy(aiTool) then Some(GeneratedBy(aiTool))
    else if Truthy(aiGenerated) then Some(GeneratedContent)
    else None
  }

  /** `_build_result`: `None` when the payload is not a JSON object, or when in
      AI-compliance mode its "ai_compliance" entry is present but not an object
      (both raise inside `detect`'s loop, which then tries the next size). */
  function BuildResult(mode: string, payload: Value, info: ExtractInfo): (r: Option<DetectResult>)
    ensures r.Some? ==> payload.Obj?
    ensures r.Some? ==> r.value.detected && r.value.payload == Some(payload.fields)
                        && r.value.confidence == info.confidence
                        && r.value.extractionInfo == Some(info)
                        && r.value.errorMessage.None?
    ensures payload.Obj? && mode != AI_COMPLIANCE ==> r.Some?
    ensures r.Some? ==>
      var m := payload.fields;
      && r.value.aiGenerated == GetOr(m, "ai_generated", Bool(false))
      && r.value.aiTool == Get(m, "ai_tool")
      && r.value.copyright == Get(m, "copyright")
      && r.value.author == Get(m, "author")
      && r.value.truthmarkId == Get(m, "truthmark_id")
      && r.value.timestamp == Get(m, "timestamp")
    // social media: the AI flag drives both flags and the label
    ensures r.Some? && mode == SOCIAL_MEDIA ==>
      && r.value.isAiGenerated == r.value.aiGenerated
      && r.value.requiresLabel == r.value.aiGenerated
      && (r.value.suggestedLabel.Some? <==> Truthy(r.value.aiGenerated))
      && (Truthy(r.value.aiGenerated) && Truthy(r.value.aiTool) ==>
            r.value.suggestedLabel == Some(GeneratedBy(r.value.aiTool)))
    // AI compliance: the label requirement comes from the EU AI Act block
    ensures payload.Obj? && mode == AI_COMPLIANCE ==>
      (r.Some? <==> GetOr(payload.fields, "ai_compliance", Obj(map[])).Obj?)
    ensures r.Some? && mode == AI_COMPLIANCE ==>
      && r.value.isAiGenerated == r.value.aiGenerated
      && r.value.requiresLabel ==
           GetOr(GetOr(payload.fields, "ai_compliance", Obj(map[])).fields, "synthetic_content", Bool(false))
      && r.value.suggestedLabel.None?
    // every other mode (standard, copyright, unknown): no AI flags, no label
    ensures r.Some? && mode != SOCIAL_MEDIA && mode != AI_COMPLIANCE ==>
      && r.value.isAiGenerated == Bool(false)
      && r.value.requiresLabel == Bool(false)
      && r.value.suggestedLabel.None?
  {
    match payload
    case Obj(m) =>
      var aiGenerated := GetOr(m, "ai_generated", Bool(false));
      var aiTool := Get(m, "ai_tool");
      var base := DetectResult(true, info.confidence, Some(m), None, Some(info),
                               Get(m, "copyright"), Get(m, "author"), aiTool, aiGenerated,
                               Get(m, "truthmark_id"), Get(m, "timestamp"),
                               Bool(false), Bool(false), None);
      if mode == SOCIAL_MEDIA then
        Some(base.(isAiGenerated := aiGenerated, requiresLabel := aiGenerated,
                   suggestedLabel := SuggestLabel(aiGenerated, aiTool)))
      else if mode == AI_COMPLIANCE then
        match GetOr(m, "ai_compliance", Obj(map[]))
        case Obj(eu) =>
          Some(base.(isAiGenerated := aiGenerated,
                     requiresLabel := GetOr(eu, "synthetic_content", Bool(false))))
        case _ => None
      else
        Some(base)
    case _ => None
  }

  /** In AI-compliance mode a payload whose "ai_compliance" entry is a dict
      holding "synthetic_content" is accepted, and that entry decides
      whether a label is required. */
  lemma ComplianceModeReadsBlock(m: Object, info: ExtractInfo)
    requires "ai_compliance" in m && m["ai_compliance"].Obj?
    requires "synthetic_content" in m["ai_compliance"].fields
    ensures var r := BuildResult(AI_COMPLIANCE, Obj(m), info);
      r.Some? && r.value.requiresLabel == m["ai_compliance"].fields["synthetic_content"]
  {
    assert GetOr(m, "ai_compliance", Obj(map[])) == m["ai_compliance"];
  }

  // ---------------------------------------------------------------------
  // Search

  /** Everything one detection attempt depends on. */
  datatype Probe = Probe(mode: string, key: string, picture: Picture, crypto: Crypto)

  /** One iteration of `detect`'s loop for a given total blob size. */
  function Attempt(p: Probe, size: nat): (r: Option<DetectResult>)
    ensures r.Some? ==> Fits(size, p.picture.height, p.picture.width)
    ensures r.Some? ==> r.value.detected && r.value.extractionInfo.Some?
                        && r.value.extractionInfo.value.bitsExtracted == size * 8
                        && r.value.confidence == 1.0
    // a size succeeds exactly when it fits, something is extracted, the blob
    // splits, the key opens it and the payload is accepted; the result is the
    // one shaped from that payload
    ensures r.Some? <==>
      && Fits(size, p.picture.height, p.picture.width)
      && p.picture.extract(size).Some?
      && SplitBlob(p.picture.extract(size).value).Some?
      && var parts := SplitBlob(p.picture.extract(size).value).value;
      && p.crypto(p.key, parts.0, parts.1).Some?
      && var dec := p.crypto(p.key, parts.0, parts.1).value;
      && BuildResult(p.mode, dec.payload, ExtractInfo(size * 8, |dec.plaintext|, 1.0)).Some?
      && r == BuildResult(p.mode, dec.payload, ExtractInfo(size * 8, |dec.plaintext|, 1.0))
  {
    if !Fits(size, p.picture.height, p.picture.width) then None
    else
      match p.picture.extract(size)
      case None => None
      case Some(data) =>
        match SplitBlob(data)
        case None => None
        case Some(parts) =>
          var (encrypted, hash) := parts;
          match p.crypto(p.key, encrypted, hash)
          case None => None
          case Some(result) =>
            BuildResult(p.mode, result.payload, ExtractInfo(size * 8, |result.plaintext|, 1.0))
  }

  /** The first present value of a sequence, scanning from the left. */
  function FirstSome<T>(xs: seq<Option<T>>): (r: Option<T>)
    ensures r.None? <==> forall i :: 0 <= i < |xs| ==> xs[i].None?
    ensures r.Some? ==> exists i :: 0 <= i < |xs| && xs[i] == r && forall j :: 0 <= j < i ==> xs[j].None?
  {
    if |xs| == 0 then None
    else if xs[0].Some? then xs[0]
    else
      var tail := xs[1..];
      var rest := FirstSome(tail);
      assert forall i :: 1 <= i < |xs| ==> xs[i] == tail[i - 1];
      assert rest.Some? ==> exists i :: 0 <= i < |xs| && xs[i] == rest
                              && forall j :: 0 <= j < i ==> xs[j].None? by {
        if rest.Some? {
          var k :| 0 <= k < |tail| && tail[k] == rest && forall j :: 0 <= j < k ==> tail[j].None?;
          assert xs[k + 1] == rest;
        }
      }
      rest
  }

  /** The attempt at each size, in list order. */
  function Attempts(p: Probe, sizes: seq<nat>): (a: seq<Option<DetectResult>>)
    ensures |a| == |sizes| && forall i :: 0 <= i < |sizes| ==> a[i] == Attempt(p, sizes[i])
  {
    seq(|sizes|, i requires 0 <= i < |sizes| => Attempt(p, sizes[i]))
  }

  /** The first size, in list order, whose attempt succeeds decides the result. */
  function Search(p: Probe, sizes: seq<nat>): (r: Option<DetectResult>)
    ensures r.None? <==> forall i :: 0 <= i < |sizes| ==> Attempt(p, sizes[i]).None?
    ensures r.Some? ==> exists i :: 0 <= i < |sizes| && Attempt(p, sizes[i]) == r
                          && forall j :: 0 <= j < i ==> Attempt(p, sizes[j]).None?
  {
    FirstSome(Attempts(p, sizes))
  }

  /** Extraction is never consulted for a size that does not fit: two pictures
      of the same dimensions that agree on every fitting size give the same
      search outcome. */
  lemma SearchIgnoresOversizedSizes(p: Probe, q: Probe, sizes: seq<nat>)
    requires p.mode == q.mode && p.key == q.key && p.crypto == q.crypto
    requires p.picture.height == q.picture.height && p.picture.width == q.picture.width
    requires forall s: nat :: Fits(s, p.picture.height, p.picture.width) ==>
               p.picture.extract(s) == q.picture.extract(s)
    ensures Search(p, sizes) == Search(q, sizes)
  {
    forall i | 0 <= i < |sizes|
      ensures Attempts(p, sizes)[i] == Attempts(q, sizes)[i]
    {
      assert Attempt(p, sizes[i]) == Attempt(q, sizes[i]);
    }
    assert Attempts(p, sizes) == Attempts(q, sizes);
  }

  // ---------------------------------------------------------------------
  // detect

  /** `detect(image, key)`. `image` is the loaded picture or the message of the
      exception raised while loading it. */
  function Detect(d: Detector, image: Result<Picture, string>, perCall: Option<string>, crypto: Crypto)
    : (r: DetectResult)
    ensures !r.detected ==> r.confidence == 0.0 && r.payload.None? && r.extractionInfo.None?
                            && r.errorMessage.Some?
    ensures image.Err? ==> r == Undetected(image.error)
    ensures image.Ok? && EffectiveKey(d, perCall).None? ==> r == Undetected(NO_KEY_MESSAGE)
    ensures r.detected <==>
      image.Ok? && EffectiveKey(d, perCall).Some? &&
      exists i :: 0 <= i < |Candidates()| &&
        Attempt(Probe(d.mode, EffectiveKey(d, perCall).value, image.value, crypto), Candidates()[i]).Some?
    ensures r.detected ==>
      exists i :: 0 <= i < |Candidates()| &&
        var p := Probe(d.mode, EffectiveKey(d, perCall).value, image.value, crypto);
        Attempt(p, Candidates()[i]) == Some(r) &&
        forall j :: 0 <= j < i ==> Attempt(p, Candidates()[j]).None?
    ensures !r.detected && image.Ok? && EffectiveKey(d, perCall).Some? ==>
      r == Undetected(NOT_FOUND_MESSAGE)
  {
    match image
    case Err(message) => Undetected(message)
    case Ok(picture) =>
      match EffectiveKey(d, perCall)
      case None => Undetected(NO_KEY_MESSAGE)
      case Some(k) =>
        match Search(Probe(d.mode, k, picture, crypto), Candidates())
        case Some(found) => found
        case None => Undetected(NOT_FOUND_MESSAGE)
  }

  // ---------------------------------------------------------------------
  // verify_copyright

  datatype CopyrightReport =
    | NoWatermark
    | OwnerCheck(verified: bool, expectedOwner: string, actualOwner: string, confidence: real,
                 truthmarkId: Value, timestamp: Value, fullPayload: Option<Object>)
  {
    predicate Verified() {
      OwnerCheck? && verified
    }
  }

  /** The owner a payload names: the first truthy of "owner", "author" and
      "copyright" (that last one defaulting to ""), or "" for an empty payload. */
  function ActualOwner(payload: Option<Object>): (v: Value)
    ensures payload.None? || |payload.value| == 0 ==> v == Str("")
    ensures payload.Some? && Truthy(Get(payload.value, "owner")) ==> v == payload.value["owner"]
    ensures (payload.Some? && !Truthy(Get(payload.value, "owner")) &&
             Truthy(Get(payload.value, "author"))) ==> v == payload.value["author"]
    ensures (payload.Some? && |payload.value| > 0 && !Truthy(Get(payload.value, "owner")) &&
             !Truthy(Get(payload.value, "author"))) ==> v == GetOr(payload.value, "copyright", Str(""))
  {
    match payload
    case Some(m) =>
      if |m| > 0 then Or(Get(m, "owner"), Or(Get(m, "author"), GetOr(m, "copyright", Str(""))))
      else Str("")
    case None => Str("")
  }

  /** The report `verify_copyright` makes of a detection. An owner that is
      not a string makes `.lower()` raise out of the call: `Err` with
      Python's message. */
  function OwnerReport(r: DetectResult, expected: string): (rep: Result<CopyrightReport, string>)
    ensures !r.detected ==> rep == Ok(NoWatermark)
    ensures r.detected ==>
      match ActualOwner(r.payload)
      case Str(actual) =>
        rep.Ok? && rep.value.OwnerCheck? && rep.value.actualOwner == actual
        && rep.value.expectedOwner == expected
        && rep.value.confidence == r.confidence
        && (rep.value.Verified() <==> exists i :: OccursAt(Lower(actual), Lower(expected), i))
        && rep.value.truthmarkId == r.truthmarkId && rep.value.timestamp == r.timestamp
        && rep.value.fullPayload == r.payload
      case other => rep == Err(AttributeError(other, "lower"))
  {
    if !r.detected then Ok(NoWatermark)
    else
      match ActualOwner(r.payload)
      case Str(actual) =>
        Ok(OwnerCheck(Contains(Lower(actual), Lower(expected)), expected, actual,
                      r.confidence, r.truthmarkId, r.timestamp, r.payload))
      case other => Err(AttributeError(other, "lower"))
  }

  /** `verify_copyright(image, expected_owner, key)`: the owner report of a
      detection with `key` as the per-call key. */
  function VerifyCopyright(d: Detector, image: Result<Picture, string>, expected: string,
                           key: string, crypto: Crypto): (rep: Result<CopyrightReport, string>)
    ensures image.Err? ==> rep == Ok(NoWatermark)
    ensures rep == OwnerReport(Detect(d, image, Some(key), crypto), expected)
    // verified exactly when the key finds a watermark whose string owner
    // contains the expected one, ignoring case; a non-string owner raises
    ensures var r := Detect(d, image, Some(key), crypto);
      && (rep.Err? <==> r.detected && !ActualOwner(r.payload).Str?)
      && (rep.Ok? && rep.value.Verified() <==>
            r.detected && ActualOwner(r.payload).Str?
            && Contains(Lower(ActualOwner(r.payload).s), Lower(expected)))
  {
    OwnerReport(Detect(d, image, Some(key), crypto), expected)
  }

  /** An empty expected owner verifies against every detected watermark whose
      owner is a string. */
  lemma EmptyOwnerVerifies(r: DetectResult)
    requires r.detected && ActualOwner(r.payload).Str?
    ensures OwnerReport(r, "").Ok? && OwnerReport(r, "").value.Verified()
  {
    EmptyNeedleOccurs(ActualOwner(r.payload).s);
  }

  lemma EmptyNeedleOccurs(hay: string)
    ensures exists i :: OccursAt(Lower(hay), Lower(""), i)
  {
    assert OccursAt(Lower(hay), Lower(""), 0);
  }

  // ---------------------------------------------------------------------
  // check_ai_compliance

  datatype ComplianceCheck =
    | NoAiWatermark
    | AiCheck(compliant: Value, aiGenerated: Value, aiTool: Value, modelProvider: Value,
              syntheticContent: Value, timestamp: Value, fullPayload: Option<Object>)

  /** The answer `check_ai_compliance` gives for a detection. An
      "ai_compliance" entry that is not an object makes `.get` raise out of
      the call: `Err` with Python's message. */
  function ComplianceOf(r: DetectResult): (c: Result<ComplianceCheck, string>)
    ensures !r.detected ==> c == Ok(NoAiWatermark)
    ensures r.detected && r.payload.Some? ==>
      match GetOr(r.payload.value, "ai_compliance", Obj(map[]))
      case Obj(eu) =>
        c.Ok? && c.value.AiCheck?
        && c.value.compliant == GetOr(eu, "eu_ai_act", Bool(false))
        && c.value.syntheticContent == GetOr(eu, "synthetic_content", Bool(false))
        && c.value.modelProvider == Get(eu, "model_provider")
        && c.value.aiGenerated == r.aiGenerated
        && c.value.aiTool == r.aiTool && c.value.timestamp == r.timestamp
        && c.value.fullPayload == r.payload
      case other => |r.payload.value| > 0 ==> c == Err(AttributeError(other, "get"))
    // an empty or missing payload reads as an empty block
    ensures r.detected && (r.payload.None? || |r.payload.value| == 0) ==>
      c == Ok(AiCheck(Bool(false), r.aiGenerated, r.aiTool, Null, Bool(false), r.timestamp, r.payload))
  {
    if !r.detected then Ok(NoAiWatermark)
    else
      var block := if r.payload.Some? && |r.payload.value| > 0
                   then GetOr(r.payload.value, "ai_compliance", Obj(map[])) else Obj(map[]);
      match block
      case Obj(eu) =>
        Ok(AiCheck(GetOr(eu, "eu_ai_act", Bool(false)), r.aiGenerated, r.aiTool,
                   Get(eu, "model_provider"), GetOr(eu, "synthetic_content", Bool(false)),
                   r.timestamp, r.payload))
      case other => Err(AttributeError(other, "get"))
  }

  /** A detected payload whose "ai_compliance" entry is a dict is accepted in
      every mode, and its compliance answer reads that dict's flags. */
  lemma ComplianceReadsBlock(m: Object, mode: string, info: ExtractInfo)
    requires "ai_compliance" in m && m["ai_compliance"].Obj?
    ensures var d := BuildResult(mode, Obj(m), info);
      && d.Some?
      && var c := ComplianceOf(d.value);
      && c.Ok? && c.value.AiCheck?
      && c.value.compliant == GetOr(m["ai_compliance"].fields, "eu_ai_act", Bool(false))
      && c.value.syntheticContent == GetOr(m["ai_compliance"].fields, "synthetic_content", Bool(false))
  {
    assert GetOr(m, "ai_compliance", Obj(map[])) == m["ai_compliance"];
    var d := BuildResult(mode, Obj(m), info);
    assert d.Some? && d.value.detected && d.value.payload == Some(m);
    assert |m| > 0 by { assert "ai_compliance" in m; }
  }

  /** `check_ai_compliance(image, key)`: the compliance answer for a
      detection with the given per-call key. */
  function CheckAiCompliance(d: Detector, image: Result<Picture, string>, key: Option<string>,
                             crypto: Crypto): (c: Result<ComplianceCheck, string>)
    ensures image.Err? ==> c == Ok(NoAiWatermark)
    ensures c == ComplianceOf(Detect(d, image, key, crypto))
  {
    ComplianceOf(Detect(d, image, key, crypto))
  }

  // ---------------------------------------------------------------------
  // detect_batch

  datatype Keys = OneKey(key: string) | NoKeys | KeyList(keys: seq<string>)

  /** `keys_list` in `detect_batch`: a single key is repeated, no keys pads
      with `None`, a list is taken as it is. */
  function KeysFor(keys: Keys, n: nat): (r: seq<Option<string>>)
    ensures keys.KeyList? ==> |r| == |keys.keys| && forall i :: 0 <= i < |r| ==> r[i] == Some(keys.keys[i])
    ensures keys.OneKey? ==> |r| == n && forall i :: 0 <= i < n ==> r[i] == Some(keys.key)
    ensures keys.NoKeys? ==> |r| == n && forall i :: 0 <= i < n ==> r[i].None?
  {
    match keys
    case OneKey(k) => seq(n, _ => Some(k))
    case NoKeys => seq(n, _ => None)
    case KeyList(ks) => seq(|ks|, i requires 0 <= i < |ks| => Some(ks[i]))
  }

  /** `detect_batch(paths, keys)`: `zip` stops at the shorter list, and the
      results follow the image order. */
  function DetectBatch(d: Detector, images: seq<Result<Picture, string>>, keys: Keys, crypto: Crypto)
    : (rs: seq<DetectResult>)
    ensures |rs| == Min(|images|, |KeysFor(keys, |images|)|)
    ensures !keys.KeyList? ==> |rs| == |images|
    ensures forall i :: 0 <= i < |rs| ==> rs[i] == Detect(d, images[i], KeysFor(keys, |images|)[i], crypto)
  {
    var ks := KeysFor(keys, |images|);
    seq(Min(|images|, |ks|), i requires 0 <= i < Min(|images|, |ks|) => Detect(d, images[i], ks[i], crypto))
  }
}

=== FILE: embedder.dfy ===
/** The parameter logic of `TruthMarkEmbedder`: which key it uses, how the
    payload dictionary is assembled, how the embedded blob is laid out, which
    save arguments each image format gets, where the output goes, and how a
    batch is broadcast. Loading, encrypting, watermarking and saving images
    are oracles collected in an `Env`. */
module Embedder {
  import opened Common
  import PathNames
  import Detector
  import JpegQuality

  // ---------------------------------------------------------------------
  // Configuration and construction

  /** The fields of `TruthMarkConfig` the embedder reads. */
  datatype Config = Config(
    strength: real,
    targetPsnr: real,
    useAiSaliency: bool,
    encryptionKey: Option<string>,
    preserveFormat: bool,
    preserveSize: bool,
    includeTimestamp: bool,
    includeTruthmarkId: bool,
    includeFingerprint: bool,
    aiActCompliance: bool,
    customMetadata: Object,
    format: JpegQuality.FormatConfig,
    sizeTolerance: real)

  datatype Embedder = Embedder(config: Config, key: string)

  /** The deprecated arguments overwrite the field they name when given. */
  function WithLegacy(base: Config, strength: Option<real>, targetPsnr: Option<real>,
                      useAiSaliency: Option<bool>): (c: Config)
    ensures c.strength == (if strength.Some? then strength.value else base.strength)
    ensures c.targetPsnr == (if targetPsnr.Some? then targetPsnr.value else base.targetPsnr)
    ensures c.useAiSaliency == (if useAiSaliency.Some? then useAiSaliency.value else base.useAiSaliency)
    ensures c == base.(strength := c.strength, targetPsnr := c.targetPsnr, useAiSaliency := c.useAiSaliency)
  {
    base.(
      strength := if strength.Some? then strength.value else base.strength,
      targetPsnr := if targetPsnr.Some? then targetPsnr.value else base.targetPsnr,
      useAiSaliency := if useAiSaliency.Some? then useAiSaliency.value else base.useAiSaliency)
  }

  /** `TruthMarkEmbedder(key, config, strength, target_psnr, use_ai_saliency)`.
      `preset` is the "balanced" configuration used when none is given and
      `generated` the key a fresh crypto engine would produce. */
  function NewEmbedder(key: Option<string>, config: Option<Config>, preset: Config,
                       strength: Option<real>, targetPsnr: Option<real>,
                       useAiSaliency: Option<bool>, generated: string): (e: Embedder)
    // key order: explicit key, then the configured key, then a generated one
    ensures Detector.Usable(key) ==> e.key == key.value
    ensures !Detector.Usable(key) && Detector.Usable(e.config.encryptionKey) ==>
              e.key == e.config.encryptionKey.value
    ensures !Detector.Usable(key) && !Detector.Usable(e.config.encryptionKey) ==> e.key == generated
    // legacy arguments overwrite only the field they name
    ensures var base := if config.Some? then config.value else preset;
      && e.config.strength == (if strength.Some? then strength.value else base.strength)
      && e.config.targetPsnr == (if targetPsnr.Some? then targetPsnr.value else base.targetPsnr)
      && e.config.useAiSaliency == (if useAiSaliency.Some? then useAiSaliency.value else base.useAiSaliency)
      && e.config.(strength := base.strength, targetPsnr := base.targetPsnr,
                   useAiSaliency := base.useAiSaliency) == base
  {
    var c := WithLegacy(if config.Some? then config.value else preset, strength, targetPsnr, useAiSaliency);
    var k := if Detector.Usable(key) then key.value
             else if Detector.Usable(c.encryptionKey) then c.encryptionKey.value
             else generated;
    Embedder(c, k)
  }

  /** The chosen key is one of the three candidates, and it is empty only
      when every candidate was unusable and the generated key is empty. */
  lemma KeyIsACandidate(key: Option<string>, config: Option<Config>, preset: Config,
                        strength: Option<real>, targetPsnr: Option<real>,
                        useAiSaliency: Option<bool>, generated: string)
    ensures var e := NewEmbedder(key, config, preset, strength, targetPsnr, useAiSaliency, generated);
      && (Some(e.key) == key || Some(e.key) == e.config.encryptionKey || e.key == generated)
      && (e.key == "" ==> generated == "")
  {
  }

  // ---------------------------------------------------------------------
  // Payload assembly

  /** The values `embed` stamps into a payload: the clock, a fresh UUID and
      the first 16 hex digits of the image's SHA-256. */
  datatype Stamps = Stamps(timestamp: string, truthmarkId: string, imageHash: string)

  /** A dictionary is copied; anything else becomes `{"copyright": info}`. */
  function Base(info: Value): (m: Object)
    ensures info.Obj? ==> m == info.fields
    ensures !info.Obj? ==> m.Keys == {"copyright"} && m["copyright"] == info
  {
    if info.Obj? then info.fields else map["copyright" := info]
  }

  /** Keys the stamps add under the given configuration. */
  function StampKeys(cfg: Config): set<string> {
    (if cfg.includeTimestamp then {"timestamp"} else {})
    + (if cfg.includeTruthmarkId then {"truthmark_id"} else {})
    + (if cfg.includeFingerprint then {"image_hash"} else {})
  }

  /** Adds the configured stamps to a payload. */
  function AddStamps(p: Object, cfg: Config, stamps: Stamps): (r: Object)
    ensures r.Keys == p.Keys + StampKeys(cfg)
    ensures forall k :: k in p && k !in StampKeys(cfg) ==> r[k] == p[k]
    ensures cfg.includeTimestamp ==> r["timestamp"] == Str(stamps.timestamp)
    ensures cfg.includeTruthmarkId ==> r["truthmark_id"] == Str(stamps.truthmarkId)
    ensures cfg.includeFingerprint ==> r["image_hash"] == Str(stamps.imageHash)
  {
    var p := if cfg.includeTimestamp then p["timestamp" := Str(stamps.timestamp)] else p;
    var p := if cfg.includeTruthmarkId then p["truthmark_id" := Str(stamps.truthmarkId)] else p;
    if cfg.includeFingerprint then p["image_hash" := Str(stamps.imageHash)] else p
  }

  /** The EU AI Act block: `setdefault("ai_compliance", {})` and then two
      item assignments, which raise when the existing entry is not a dict.
      `MarkAiActBlock` states what the block then holds. */
  function MarkAiAct(p: Object): (r: Option<Object>)
    ensures r.None? <==> "ai_compliance" in p && !p["ai_compliance"].Obj?
    ensures r.Some? ==> r.value.Keys == p.Keys + {"ai_compliance"}
    ensures r.Some? ==> forall k :: k in p && k != "ai_compliance" ==> r.value[k] == p[k]
  {
    match GetOr(p, "ai_compliance", Obj(map[]))
    case Obj(block) =>
      var marked := block["eu_ai_act" := Bool(true)];
      Some(p["ai_compliance" := Obj(marked["synthetic_content" := GetOr(p, "ai_generated", Bool(false))])])
    case _ => None
  }

  /** The block holds `eu_ai_act: true`, `synthetic_content` copied from the
      payload's "ai_generated" (default False), and its earlier entries. */
  lemma MarkAiActBlock(p: Object)
    requires MarkAiAct(p).Some?
    ensures var r := MarkAiAct(p).value;
      && "ai_compliance" in r && r["ai_compliance"].Obj?
      && var block := r["ai_compliance"].fields;
      && var old_block := GetOr(p, "ai_compliance", Obj(map[])).fields;
      && block.Keys == old_block.Keys + {"eu_ai_act", "synthetic_content"}
      && block["eu_ai_act"] == Bool(true)
      && block["synthetic_content"] == GetOr(p, "ai_generated", Bool(false))
      && forall k :: k in old_block && k != "eu_ai_act" && k != "synthetic_content" ==> block[k] == old_block[k]
  {
  }

  /** The two flags of the block, as `PayloadAiAct` needs them. */
  lemma MarkAiActFlags(p: Object)
    requires MarkAiAct(p).Some?
    ensures var r := MarkAiAct(p).value;
      && "ai_compliance" in r && r["ai_compliance"].Obj?
      && var block := r["ai_compliance"].fields;
      && "eu_ai_act" in block && "synthetic_content" in block
      && block["eu_ai_act"] == Bool(true)
      && block["synthetic_content"] == GetOr(p, "ai_generated", Bool(false))
  {
    MarkAiActBlock(p);
  }

  /** Stamping leaves every other key, and so its lookups, alone. */
  lemma StampsKeepLookups(p: Object, cfg: Config, stamps: Stamps, k: string, default: Value)
    requires k !in StampKeys(cfg)
    ensures GetOr(AddStamps(p, cfg, stamps), k, default) == GetOr(p, k, default)
  {
    if k in p {
      assert AddStamps(p, cfg, stamps)[k] == p[k];
    }
  }

  /** `if custom_metadata: payload.update(custom_metadata)`. */
  function AddCustom(p: Object, custom: Object): (r: Object)
    ensures r.Keys == p.Keys + custom.Keys
    ensures forall k :: k in custom ==> r[k] == custom[k]
    ensures forall k :: k in p && k !in custom ==> r[k] == p[k]
  {
    if Truthy(Obj(custom)) then p + custom else p
  }

  /** The AI Act step when it is configured; `None` when the block cannot be
      written. */
  function Marked(p: Object, aiAct: bool): (r: Option<Object>)
    ensures r.None? <==> aiAct && "ai_compliance" in p && !p["ai_compliance"].Obj?
    ensures r.Some? ==> r.value.Keys == p.Keys + (if aiAct then {"ai_compliance"} else {})
    ensures r.Some? ==> forall k :: k in p && (aiAct ==> k != "ai_compliance") ==> r.value[k] == p[k]
    ensures !aiAct ==> r == Some(p)
  {
    if aiAct then MarkAiAct(p) else Some(p)
  }

  /** The copyright information leaves room for the AI Act block: it is not
      a dict, or its "ai_compliance" entry is missing or a dict. */
  predicate BlockWritable(info: Value) {
    !info.Obj? || "ai_compliance" !in info.fields || info.fields["ai_compliance"].Obj?
  }

  /** The payload dictionary of `embed`: the copied or wrapped copyright
      information, the configured stamps, the AI Act block, and finally the
      custom metadata. `None` when the AI Act block cannot be written (an
      existing non-dict "ai_compliance"); `PayloadContents` states what the
      dictionary holds. */
  function BuildPayload(info: Value, cfg: Config, stamps: Stamps): (r: Option<Object>)
    ensures r.None? <==> cfg.aiActCompliance && !BlockWritable(info)
    ensures !info.Obj? ==> r.Some?
  {
    var p := AddStamps(Base(info), cfg, stamps);
    assert "ai_compliance" !in StampKeys(cfg);
    match Marked(p, cfg.aiActCompliance)
    case None => None
    case Some(marked) => Some(AddCustom(marked, cfg.customMetadata))
  }

  /** The payload is the custom metadata applied to the stamped and marked
      dictionary. */
  lemma PayloadSteps(info: Value, cfg: Config, stamps: Stamps)
    requires BuildPayload(info, cfg, stamps).Some?
    ensures var q := AddStamps(Base(info), cfg, stamps);
      && Marked(q, cfg.aiActCompliance).Some?
      && BuildPayload(info, cfg, stamps).value == AddCustom(Marked(q, cfg.aiActCompliance).value, cfg.customMetadata)
  {
    var q := AddStamps(Base(info), cfg, stamps);
    match Marked(q, cfg.aiActCompliance)
    case Some(m) =>
      assert BuildPayload(info, cfg, stamps) == Some(AddCustom(m, cfg.customMetadata));
    case None =>
  }

  /** What the payload holds: the key set is the base keys, the stamps, the
      AI Act block and the custom keys; custom metadata, applied last,
      overrides every earlier key; keys nothing else touches are copied
      unchanged. */
  lemma PayloadContents(info: Value, cfg: Config, stamps: Stamps)
    requires BuildPayload(info, cfg, stamps).Some?
    ensures var p := BuildPayload(info, cfg, stamps).value;
      && p.Keys == Base(info).Keys + StampKeys(cfg)
                   + (if cfg.aiActCompliance then {"ai_compliance"} else {})
                   + cfg.customMetadata.Keys
      && (forall k :: k in cfg.customMetadata ==> p[k] == cfg.customMetadata[k])
      && (forall k :: k in Base(info) && k !in StampKeys(cfg) && k !in cfg.customMetadata
                      && (cfg.aiActCompliance ==> k != "ai_compliance")
                      ==> p[k] == Base(info)[k])
  {
    PayloadKeys(info, cfg, stamps);
    PayloadKeeps(info, cfg, stamps);
  }

  /** The payload's key set, step by step. */
  lemma PayloadKeys(info: Value, cfg: Config, stamps: Stamps)
    requires BuildPayload(info, cfg, stamps).Some?
    ensures var p := BuildPayload(info, cfg, stamps).value;
      && p.Keys == Base(info).Keys + StampKeys(cfg)
                   + (if cfg.aiActCompliance then {"ai_compliance"} else {})
                   + cfg.customMetadata.Keys
      && (forall k :: k in cfg.customMetadata ==> p[k] == cfg.customMetadata[k])
  {
    PayloadSteps(info, cfg, stamps);
  }

  /** Keys of the copied information that no later step writes keep their
      values. */
  lemma PayloadKeeps(info: Value, cfg: Config, stamps: Stamps)
    requires BuildPayload(info, cfg, stamps).Some?
    ensures var p := BuildPayload(info, cfg, stamps).value;
      forall k :: k in Base(info) && k !in StampKeys(cfg) && k !in cfg.customMetadata
                  && (cfg.aiActCompliance ==> k != "ai_compliance")
                  ==> k in p && p[k] == Base(info)[k]
  {
    PayloadSteps(info, cfg, stamps);
    var q := AddStamps(Base(info), cfg, stamps);
    var m := Marked(q, cfg.aiActCompliance).value;
    forall k | k in Base(info) && k !in StampKeys(cfg) && k !in cfg.customMetadata
                && (cfg.aiActCompliance ==> k != "ai_compliance")
      ensures k in BuildPayload(info, cfg, stamps).value
      ensures BuildPayload(info, cfg, stamps).value[k] == Base(info)[k]
    {
      assert k in q && q[k] == Base(info)[k] && m[k] == q[k];
    }
  }

  /** The stamps survive unless the custom metadata names the same key. */
  lemma PayloadStamps(info: Value, cfg: Config, stamps: Stamps)
    requires BuildPayload(info, cfg, stamps).Some?
    ensures var p := BuildPayload(info, cfg, stamps).value;
      && (cfg.includeTimestamp && "timestamp" !in cfg.customMetadata ==>
            p["timestamp"] == Str(stamps.timestamp))
      && (cfg.includeTruthmarkId && "truthmark_id" !in cfg.customMetadata ==>
            p["truthmark_id"] == Str(stamps.truthmarkId))
      && (cfg.includeFingerprint && "image_hash" !in cfg.customMetadata ==>
            p["image_hash"] == Str(stamps.imageHash))
  {
    PayloadSteps(info, cfg, stamps);
    var q := AddStamps(Base(info), cfg, stamps);
    var m := Marked(q, cfg.aiActCompliance).value;
    var p := BuildPayload(info, cfg, stamps).value;
    if cfg.includeTimestamp && "timestamp" !in cfg.customMetadata {
      assert "timestamp" in q && m["timestamp"] == q["timestamp"] && p["timestamp"] == m["timestamp"];
    }
    if cfg.includeTruthmarkId && "truthmark_id" !in cfg.customMetadata {
      assert "truthmark_id" in q && m["truthmark_id"] == q["truthmark_id"] && p["truthmark_id"] == m["truthmark_id"];
    }
    if cfg.includeFingerprint && "image_hash" !in cfg.customMetadata {
      assert "image_hash" in q && m["image_hash"] == q["image_hash"] && p["image_hash"] == m["image_hash"];
    }
  }

  /** Under the AI Act the payload carries `eu_ai_act: true` and a
      `synthetic_content` flag copied from "ai_generated" as it was before
      the custom metadata, unless the custom metadata replaces the block. */
  lemma PayloadAiAct(info: Value, cfg: Config, stamps: Stamps)
    requires cfg.aiActCompliance && "ai_compliance" !in cfg.customMetadata && BlockWritable(info)
    ensures var p := BuildPayload(info, cfg, stamps).value;
      && "ai_compliance" in p && p["ai_compliance"].Obj?
      && var block := p["ai_compliance"].fields;
      && "eu_ai_act" in block && "synthetic_content" in block
      && block["eu_ai_act"] == Bool(true)
      && block["synthetic_content"] == GetOr(Base(info), "ai_generated", Bool(false))
  {
    var q := AddStamps(Base(info), cfg, stamps);
    PayloadBlockIsMarked(info, cfg, stamps);
    MarkAiActFlags(q);
    StampsKeepLookups(Base(info), cfg, stamps, "ai_generated", Bool(false));
  }

  /** Under the AI Act, and unless the custom metadata replaces it, the
      payload's block is the one the AI Act step wrote. */
  lemma PayloadBlockIsMarked(info: Value, cfg: Config, stamps: Stamps)
    requires cfg.aiActCompliance && "ai_compliance" !in cfg.customMetadata && BlockWritable(info)
    ensures var q := AddStamps(Base(info), cfg, stamps);
      && MarkAiAct(q).Some?
      && "ai_compliance" in BuildPayload(info, cfg, stamps).value
      && BuildPayload(info, cfg, stamps).value["ai_compliance"] == MarkAiAct(q).value["ai_compliance"]
  {
    PayloadSteps(info, cfg, stamps);
  }

  /** A payload embedded under the AI Act, once detected in AI-compliance
      mode, requires a label exactly as the original "ai_generated" said. */
  lemma AiActPayloadIsLabelled(info: Value, cfg: Config, stamps: Stamps, extract: Detector.ExtractInfo)
    requires cfg.aiActCompliance && "ai_compliance" !in cfg.customMetadata && BlockWritable(info)
    ensures var p := BuildPayload(info, cfg, stamps).value;
      var d := Detector.BuildResult(Detector.AI_COMPLIANCE, Obj(p), extract);
      && d.Some?
      && d.value.requiresLabel == GetOr(Base(info), "ai_generated", Bool(false))
  {
    PayloadAiAct(info, cfg, stamps);
    Detector.ComplianceModeReadsBlock(BuildPayload(info, cfg, stamps).value, extract);
  }

  /** A payload embedded under the AI Act, once detected in any mode, is
      reported EU AI Act compliant, with `synthetic_content` as the original
      "ai_generated" said. */
  lemma AiActPayloadIsCompliant(info: Value, cfg: Config, stamps: Stamps, mode: string,
                                extract: Detector.ExtractInfo)
    requires cfg.aiActCompliance && "ai_compliance" !in cfg.customMetadata && BlockWritable(info)
    ensures var p := BuildPayload(info, cfg, stamps).value;
      var d := Detector.BuildResult(mode, Obj(p), extract);
      && d.Some?
      && var c := Detector.ComplianceOf(d.value);
      && c.Ok? && c.value.AiCheck?
      && c.value.compliant == Bool(true)
      && c.value.syntheticContent == GetOr(Base(info), "ai_generated", Bool(false))
  {
    PayloadAiAct(info, cfg, stamps);
    var p := BuildPayload(info, cfg, stamps).value;
    Detector.ComplianceReadsBlock(p, mode, extract);
  }

  // ---------------------------------------------------------------------
  // The embedded blob

  /** `encrypted_data + integrity_hash`. */
  function EmbeddedBlob(encrypted: Bytes, hash: Bytes): (blob: Bytes)
    ensures |blob| == |encrypted| + |hash|
    ensures blob[..|encrypted|] == encrypted && blob[|encrypted|..] == hash
  {
    encrypted + hash
  }

  /** A size whose extraction gives back the embedded blob, with a hash of
      the detector's length, a key that opens it and an accepted payload, is
      detected with exactly that payload. */
  lemma EmbeddedBlobIsDetected(p: Detector.Probe, size: nat, encrypted: Bytes, hash: Bytes,
                               dec: Detector.Opened)
    requires Detector.Fits(size, p.picture.height, p.picture.width)
    requires p.picture.extract(size) == Some(EmbeddedBlob(encrypted, hash))
    requires |hash| == Detector.HASH_LEN
    requires p.crypto(p.key, encrypted, hash) == Some(dec)
    requires dec.payload.Obj? && p.mode != Detector.AI_COMPLIANCE
    ensures var r := Detector.Attempt(p, size);
      && r.Some? && r.value.detected
      && r.value.payload == Some(dec.payload.fields)
      && r.value.extractionInfo == Some(Detector.ExtractInfo(size * 8, |dec.plaintext|, 1.0))
  {
    BlobRoundTrip(encrypted, hash, EmbeddedBlob(encrypted, hash));
  }

  /** The detector's split undoes the embedder's concatenation when the hash
      has the detector's length, and every blob it accepts is such a
      concatenation. */
  lemma BlobRoundTrip(encrypted: Bytes, hash: Bytes, data: Bytes)
    ensures |hash| == Detector.HASH_LEN ==>
              Detector.SplitBlob(EmbeddedBlob(encrypted, hash)) == Some((encrypted, hash))
    ensures Detector.SplitBlob(data).Some? ==>
              var (e, h) := Detector.SplitBlob(data).value;
              EmbeddedBlob(e, h) == data && |h| == Detector.HASH_LEN
  {
    if |hash| == Detector.HASH_LEN {
      var blob := EmbeddedBlob(encrypted, hash);
      assert |blob| - Detector.HASH_LEN == |encrypted|;
    }
  }

  // ---------------------------------------------------------------------
  // Saving

  /** `format_settings.get(key, default)` on a settings dictionary. */
  function Setting(settings: Object, key: string, default: Value): Value {
    GetOr(settings, key, default)
  }

  /** Adds `key` from the settings when it is present and not `None`. */
  function CopyIfSet(kwargs: Object, settings: Object, key: string): (r: Object)
    ensures Get(settings, key) != Null ==> r == kwargs[key := settings[key]]
    ensures Get(settings, key) == Null ==> r == kwargs
  {
    if Get(settings, key) != Null then kwargs[key := settings[key]] else kwargs
  }

  /** The JPEG save: the quality, the subsampling, and the EXIF and ICC
      profile the input carried. */
  function JpegArgs(settings: Object, quality: Value): (kw: Object)
    ensures "format" in kw && kw["format"] == Str("JPEG")
    ensures "quality" in kw && kw["quality"] == quality
    ensures "subsampling" in kw && kw["subsampling"] == Setting(settings, "subsampling", Int(0))
    ensures kw.Keys == {"format", "quality", "subsampling"}
                       + (if Get(settings, "exif") != Null then {"exif"} else {})
                       + (if Get(settings, "icc_profile") != Null then {"icc_profile"} else {})
    ensures "exif" in kw ==> kw["exif"] == settings["exif"] != Null
    ensures "icc_profile" in kw ==> kw["icc_profile"] == settings["icc_profile"] != Null
  {
    var kw := map["format" := Str("JPEG"), "quality" := quality,
                  "subsampling" := Setting(settings, "subsampling", Int(0))];
    CopyIfSet(CopyIfSet(kw, settings, "exif"), settings, "icc_profile")
  }

  /** The lossless save: the compression level and the ICC profile. */
  function LosslessArgs(format: string, settings: Object): (kw: Object)
    requires format != "JPEG"
    ensures "format" in kw && kw["format"] == Str(format)
    ensures "compress_level" in kw && kw["compress_level"] == Setting(settings, "compress_level", Int(6))
    ensures kw.Keys == {"format", "compress_level"}
                       + (if Get(settings, "icc_profile") != Null then {"icc_profile"} else {})
    ensures "icc_profile" in kw ==> kw["icc_profile"] == settings["icc_profile"] != Null
  {
    var kw := map["format" := Str(format), "compress_level" := Setting(settings, "compress_level", Int(6))];
    CopyIfSet(kw, settings, "icc_profile")
  }

  /** The keyword arguments of `_save_with_format_preservation`'s final save.
      `matchSize` says whether the size is matched, in which case a JPEG is
      saved at `searched`, the quality the size-matching search found. */
  function SaveArgs(format: string, settings: Object, matchSize: bool, searched: int): (kw: Object)
    ensures "format" in kw && kw["format"] == Str(format)
    ensures format == "JPEG" ==>
      kw == JpegArgs(settings, if matchSize then Int(searched) else Setting(settings, "quality", Int(85)))
    ensures format != "JPEG" && (format == "PNG" || matchSize) ==> kw == LosslessArgs(format, settings)
    ensures format != "JPEG" && format != "PNG" && !matchSize ==> kw.Keys == {"format"}
    ensures "exif" in kw ==> format == "JPEG"
  {
    if format == "JPEG" then
      JpegArgs(settings, if matchSize then Int(searched) else Setting(settings, "quality", Int(85)))
    else if format == "PNG" || matchSize then
      LosslessArgs(format, settings)
    else
      map["format" := Str(format)]
  }

  /** How the watermarked image is written. */
  datatype SavePlan =
    | PlainSave
    | FormatSave(args: Object)

  // ---------------------------------------------------------------------
  // Embedding one image

  /** What `Image.open` and `os.path.getsize` report about the input. */
  datatype Source = Source(format: Option<string>, info: Object, fileSize: nat, pixels: nat)

  /** A step of an oracle either completes or raises with a message. */
  datatype Status = Done | Failed(message: string)

  /** The outside world of one `embed` call: the input image, the stamps,
      encryption (payload to ciphertext and hash), watermarking the blob into
      the pixels, the encoded size at each JPEG quality, and saving. */
  datatype Env = Env(
    source: Result<Source, string>,
    stamps: Stamps,
    seal: (string, Object) -> Result<(Bytes, Bytes), string>,
    mark: Bytes -> Status,
    sizeAt: JpegQuality.SizeAt,
    save: (PathNames.Path, SavePlan) -> Status)

  datatype EmbedResult = EmbedResult(
    success: bool,
    key: string,
    outputPath: Option<PathNames.Path>,
    payload: Option<Object>,
    blob: Option<Bytes>,
    formatPreserved: bool,
    errorMessage: Option<string>)

  /** The failure result: only the key and the message. */
  function Failure(key: string, message: string): (r: EmbedResult)
    ensures !r.success && r.key == key && r.errorMessage == Some(message)
  {
    EmbedResult(false, key, None, None, None, false, Some(message))
  }

  const DIVISION_BY_ZERO := "division by zero"

  /** The `TypeError` Python raises for `v["eu_ai_act"] = True` when `v` is
      not a dict: a list wants an integer index, any other type has no item
      assignment. */
  function ItemAssignmentError(v: Value): (message: string)
    requires !v.Obj?
  {
    if v.List? then "list indices must be integers or slices, not str"
    else "'" + TypeName(v) + "' object does not support item assignment"
  }

  /** The format settings `embed` detects: none are looked for when format
      preservation is off; `None` when detection divides by zero. */
  function SettingsFor(cfg: Config, src: Source): Option<Object> {
    if cfg.preserveFormat
    then JpegQuality.FormatSettings(src.format, cfg.format, src.info, src.fileSize, src.pixels)
    else Some(map[])
  }

  /** The output path: the caller's, or the input renamed in place. */
  function OutputFor(input: PathNames.Path, outputPath: Option<PathNames.Path>): PathNames.Path {
    if outputPath.Some? then outputPath.value else PathNames.DefaultOutput(input)
  }

  /** How `embed` saves: with the format's arguments only when format
      preservation is on, the detected settings are non-empty and the format
      is known; otherwise a plain save. With size preservation a JPEG's
      quality comes from the size-matching search against the input's size. */
  function PlanSave(cfg: Config, src: Source, settings: Object, sizeAt: JpegQuality.SizeAt): (plan: SavePlan)
    ensures plan.FormatSave? <==> cfg.preserveFormat && |settings| > 0 && src.format.Some? && src.format.value != ""
    ensures plan.FormatSave? && !cfg.preserveSize ==>
              plan.args == SaveArgs(src.format.value, settings, false, 0)
    ensures plan.FormatSave? && cfg.preserveSize && src.format.value == "JPEG" ==>
              "quality" in plan.args && var q := plan.args["quality"];
              q.Int? && JpegQuality.LOW_START - 1 <= q.i <= JpegQuality.HIGH_START
    // with size preservation a JPEG is saved at the quality the search settles
    // on, within the tolerance around the input's size; other formats ignore it
    ensures plan.FormatSave? && cfg.preserveSize ==>
              plan.args == SaveArgs(src.format.value, settings, true,
                                    if src.format.value == "JPEG"
                                    then JpegQuality.SearchFrom(JpegQuality.START, JpegQuality.MAX_ITERATIONS, sizeAt,
                                                                src.fileSize, src.fileSize as real * cfg.sizeTolerance).quality
                                    else 0)
  {
    if cfg.preserveFormat && |settings| > 0 && src.format.Some? && src.format.value != "" then
      var format := src.format.value;
      if !cfg.preserveSize then FormatSave(SaveArgs(format, settings, false, 0))
      else if format == "JPEG" then
        var tolerance := src.fileSize as real * cfg.sizeTolerance;
        JpegQuality.SearchGuarantees(sizeAt, src.fileSize, tolerance);
        var q := JpegQuality.SearchFrom(JpegQuality.START, JpegQuality.MAX_ITERATIONS,
                                        sizeAt, src.fileSize, tolerance).quality;
        FormatSave(SaveArgs(format, settings, true, q))
      else FormatSave(SaveArgs(format, settings, true, 0))
    else PlainSave
  }

  /** `embed`: every failure is caught and reported with the embedder's key;
      on success the result carries the payload, the blob that was
      watermarked into the image and the output path. */
  function Embed(e: Embedder, input: PathNames.Path, info: Value,
                 outputPath: Option<PathNames.Path>, env: Env): (r: EmbedResult)
    ensures r.key == e.key
    ensures env.source.Err? ==> r == Failure(e.key, env.source.error)
    ensures !r.success ==> r.outputPath.None? && r.payload.None? && r.errorMessage.Some?
    ensures r.success ==> r.errorMessage.None?
    ensures r.success ==> r.outputPath == Some(OutputFor(input, outputPath))
    ensures r.success ==> r.payload == BuildPayload(info, e.config, env.stamps)
    // the blob is the ciphertext followed by the hash, which the detector splits back
    ensures r.success ==>
              && r.payload.Some? && r.blob.Some? && env.seal(e.key, r.payload.value).Ok?
              && var (encrypted, hash) := env.seal(e.key, r.payload.value).value;
              && r.blob.value == EmbeddedBlob(encrypted, hash)
              && (|hash| == Detector.HASH_LEN ==> Detector.SplitBlob(r.blob.value) == Some((encrypted, hash)))
    ensures r.formatPreserved ==> r.success && e.config.preserveFormat
    // success exactly when every step completes, the last being the save of
    // the planned arguments to the output path
    ensures r.success <==>
      && env.source.Ok?
      && SettingsFor(e.config, env.source.value).Some?
      && BuildPayload(info, e.config, env.stamps).Some?
      && env.seal(e.key, BuildPayload(info, e.config, env.stamps).value).Ok?
      && var (encrypted, hash) := env.seal(e.key, BuildPayload(info, e.config, env.stamps).value).value;
      && env.mark(EmbeddedBlob(encrypted, hash)) == Done
      && var plan := PlanSave(e.config, env.source.value, SettingsFor(e.config, env.source.value).value, env.sizeAt);
      && env.save(OutputFor(input, outputPath), plan) == Done
      && r.formatPreserved == plan.FormatSave?
    // settings detection fails before the payload is built, and an AI Act
    // block over a non-dict entry fails with Python's message for its type
    ensures env.source.Ok? && SettingsFor(e.config, env.source.value).None? ==>
              r == Failure(e.key, DIVISION_BY_ZERO)
    ensures env.source.Ok? && SettingsFor(e.config, env.source.value).Some?
            && BuildPayload(info, e.config, env.stamps).None? ==>
              info.Obj? && "ai_compliance" in info.fields && !info.fields["ai_compliance"].Obj?
              && r == Failure(e.key, ItemAssignmentError(info.fields["ai_compliance"]))
  {
    var cfg := e.config;
    match env.source
    case Err(message) => Failure(e.key, message)
    case Ok(src) =>
      var settings := SettingsFor(cfg, src);
      if settings.None? then Failure(e.key, DIVISION_BY_ZERO)
      else
        match BuildPayload(info, cfg, env.stamps)
        case None => Failure(e.key, ItemAssignmentError(info.fields["ai_compliance"]))
        case Some(payload) =>
          match env.seal(e.key, payload)
          case Err(message) => Failure(e.key, message)
          case Ok(sealed) =>
            var (encrypted, hash) := sealed;
            var blob := EmbeddedBlob(encrypted, hash);
            BlobRoundTrip(encrypted, hash, blob);
            match env.mark(blob)
            case Failed(message) => Failure(e.key, message)
            case Done =>
              var out := OutputFor(input, outputPath);
              var plan := PlanSave(cfg, src, settings.value, env.sizeAt);
              match env.save(out, plan)
              case Failed(message) => Failure(e.key, message)
              case Done => EmbedResult(true, e.key, Some(out), Some(payload), Some(blob), plan.FormatSave?, None)
  }

  /** Without an output path, a successful embed writes next to the input
      under `<stem>_watermarked<suffix>`, never over the input itself. */
  lemma DefaultOutputBesideInput(e: Embedder, input: PathNames.Path, info: Value, env: Env)
    requires Embed(e, input, info, None, env).success
    ensures var out := Embed(e, input, info, None, env).outputPath.value;
      && PathNames.Parent(out) == PathNames.Parent(input)
      && PathNames.Name(out) == PathNames.WatermarkedName(PathNames.Name(input))
      && out != input
  {
  }

  // ---------------------------------------------------------------------
  // Batches

  /** `copyright_infos`: one dictionary for every image, or a list. */
  datatype Infos = OneInfo(fields: Object) | InfoList(items: seq<Value>)

  /** The infos paired with `n` images: a single dictionary is repeated `n`
      times; a list is used as given. */
  function InfosFor(infos: Infos, n: nat): (r: seq<Value>)
    ensures infos.OneInfo? ==> |r| == n && forall i :: 0 <= i < n ==> r[i] == Obj(infos.fields)
    ensures infos.InfoList? ==> r == infos.items
  {
    match infos
    case OneInfo(fields) => seq(n, _ => Obj(fields))
    case InfoList(items) => items
  }

  /** `embed_batch`: images and infos are zipped, so the shorter one decides
      the count; with an output directory every output goes there under the
      renamed name, otherwise next to its input. `outputDir` is `None` for
      both Python's `None` and the empty string. `envs(i)` is the outside
      world of the i-th call. */
  function EmbedBatch(e: Embedder, inputs: seq<PathNames.Path>, infos: Infos,
                      outputDir: Option<PathNames.Path>, envs: nat -> Env): (r: seq<EmbedResult>)
    ensures |r| == Min(|inputs|, |InfosFor(infos, |inputs|)|)
    ensures forall i :: 0 <= i < |r| ==>
      r[i] == Embed(e, inputs[i], InfosFor(infos, |inputs|)[i],
                    if outputDir.Some? then Some(PathNames.BatchOutput(outputDir.value, inputs[i])) else None,
                    envs(i))
  {
    var all := InfosFor(infos, |inputs|);
    var n := Min(|inputs|, |all|);
    seq(n, i requires 0 <= i < n =>
      Embed(e, inputs[i], all[i],
            if outputDir.Some? then Some(PathNames.BatchOutput(outputDir.value, inputs[i])) else None,
            envs(i)))
  }

  /** A single dictionary covers every image; every result carries the
      embedder's key; with an output directory every successful output lies
      in it, named like the default output of its input. */
  lemma BatchCoversEveryImage(e: Embedder, inputs: seq<PathNames.Path>, fields: Object,
                              outputDir: Option<PathNames.Path>, envs: nat -> Env)
    ensures var r := EmbedBatch(e, inputs, OneInfo(fields), outputDir, envs);
      && |r| == |inputs|
      && (forall i :: 0 <= i < |r| ==> r[i].key == e.key)
      && (outputDir.Some? ==> forall i :: 0 <= i < |r| && r[i].success ==>
            && PathNames.Parent(r[i].outputPath.value) == outputDir.value
            && PathNames.Name(r[i].outputPath.value) == PathNames.Name(PathNames.DefaultOutput(inputs[i])))
  {
    var r := EmbedBatch(e, inputs, OneInfo(fields), outputDir, envs);
    assert |r| == |inputs|;
  }
}

=== FILE: go_client.dfy ===
/** The Go client (`truthmark.go`): its configuration defaults, the requests
    `Encode` and `Decode` build, and how a response becomes a result or an
    error. Only a 200 response is parsed. */
module GoClient {
  import opened Common
  import opened Http

  const DEFAULT_BASE_URL := "http://localhost:8000"
  /** `30 * time.Second`, in nanoseconds. */
  const DEFAULT_TIMEOUT := 30 * 1_000_000_000
  const STATUS_OK := 200
  const MULTIPART := "multipart/form-data; boundary="

  /** `Config`; `Timeout` is a `time.Duration` in nanoseconds. */
  datatype Config = Config(baseUrl: string, apiKey: string, timeout: int)

  datatype Client = Client(baseUrl: string, apiKey: string, timeout: int)

  /** `NewClient`: a nil config means the local server and 30 seconds; a
      zero timeout becomes 30 seconds, while every other field of a supplied
      config, an empty base URL included, is kept. */
  function NewClient(config: Option<Config>): (c: Client)
    ensures config.None? ==> c == Client(DEFAULT_BASE_URL, "", DEFAULT_TIMEOUT)
    ensures config.Some? ==> c.baseUrl == config.value.baseUrl && c.apiKey == config.value.apiKey
    ensures config.Some? && config.value.timeout != 0 ==> c.timeout == config.value.timeout
    ensures config.Some? && config.value.timeout == 0 ==> c.timeout == DEFAULT_TIMEOUT
    ensures c.timeout != 0
  {
    var cfg := if config.Some? then config.value else Config(DEFAULT_BASE_URL, "", DEFAULT_TIMEOUT);
    Client(cfg.baseUrl, cfg.apiKey, if cfg.timeout == 0 then DEFAULT_TIMEOUT else cfg.timeout)
  }

  /** Building a client from its own settings changes nothing. */
  lemma NewClientIdempotent(c: Client)
    requires c.timeout != 0
    ensures NewClient(Some(Config(c.baseUrl, c.apiKey, c.timeout))) == c
  {
  }

  /** `filepath.Base` on '/'-separated paths: "." for the empty path, "/"
      for a path of slashes, otherwise the last element after trailing
      slashes are removed. */
  function Base(path: string): (name: string)
    ensures name != ""
    ensures name == "/" || forall j :: 0 <= j < |name| ==> name[j] != '/'
    ensures path == "" ==> name == "."
    ensures path != "" && (forall j :: 0 <= j < |path| ==> path[j] != '/') ==> name == path
    ensures path != "" && RStrip(path, '/') == "" ==> name == "/"
    ensures RStrip(path, '/') != "" ==> LastElement(RStrip(path, '/'), '/', name)
  {
    if path == "" then "."
    else
      var trimmed := RStrip(path, '/');
      if trimmed == "" then "/"
      else
        assert (forall j :: 0 <= j < |path| ==> path[j] != '/') ==>
                 trimmed == path && LastIndex(trimmed, '/') == -1;
        AfterLast(trimmed, '/')
  }

  /** The request `Encode` (a message) or `Decode` (none) builds. `boundary`
      is the multipart writer's random boundary. */
  /** The headers both endpoints set: the multipart content type, and the
      bearer token only when the key is non-empty. */
  function Headers(c: Client, boundary: string): map<string, string>
  {
    var headers := map["Content-Type" := MULTIPART + boundary];
    if c.apiKey != "" then headers[AUTHORIZATION := BEARER + c.apiKey] else headers
  }

  function BuildRequest(c: Client, path: string, message: Option<string>, boundary: string): (r: Request)
    ensures r.verb == POST && r.url == c.baseUrl + Endpoint(message)
    ensures r.parts == Form(Base(path), message)
    ensures r.headers == Headers(c, boundary)
    ensures "Content-Type" in r.headers && r.headers["Content-Type"] == MULTIPART + boundary
    ensures AUTHORIZATION in r.headers <==> c.apiKey != ""
    ensures c.apiKey != "" ==> SendsBearer(r, c.apiKey)
    ensures r.headers.Keys <= {"Content-Type", AUTHORIZATION}
  {
    Request(POST, c.baseUrl + Endpoint(message), Form(Base(path), message), Headers(c, boundary))
  }

  /** `json.NewDecoder(body).Decode(&result)` into a result struct: an
      object decodes, `null` leaves the zero value, an empty body (EOF),
      malformed text or any other JSON value is an error. */
  function DecodeBody(body: Body): (r: Result<Object, ClientError>)
    ensures r.Ok? <==> body.Parsed? && (body.value.Obj? || body.value.Null?)
    ensures r.Ok? && body.value.Obj? ==> r.value == body.value.fields
    ensures r.Err? ==> r.error == ParseFailed
  {
    match body
    case Parsed(Obj(fields)) => Ok(fields)
    case Parsed(Null) => Ok(map[])
    case _ => Err(ParseFailed)
  }

  /** `Encode` / `Decode`: an image that cannot be opened or read fails
      before any request exists; after the transport, any status other than
      200 is an error and only a 200 body is decoded. */
  function Call(c: Client, path: string, message: Option<string>, boundary: string,
                file: FileState, send: Transport): (o: Outcome<Object>)
    ensures file != Readable ==> o.sent.None? && o.result.Err?
    ensures file == Missing ==> o.result == Err(FileNotFound(path))
    ensures file == Readable ==> o.sent == Some(BuildRequest(c, path, message, boundary))
    ensures o.result.Ok? ==>
      && file == Readable
      && send(o.sent.value).Ok?
      && send(o.sent.value).value.status == STATUS_OK
      && DecodeBody(send(o.sent.value).value.body) == o.result
    ensures file == Unreadable ==> o.result == Err(FileUnreadable(path))
    ensures file == Readable && send(o.sent.value).Err? ==>
              o.result == Err(TransportFailed(send(o.sent.value).error))
    ensures file == Readable && send(o.sent.value).Ok? && send(o.sent.value).value.status != STATUS_OK ==>
              o.result == Err(StatusFailed(send(o.sent.value).value.status))
    ensures file == Readable && send(o.sent.value).Ok? && send(o.sent.value).value.status == STATUS_OK ==>
              o.result == DecodeBody(send(o.sent.value).value.body)
  {
    match file
    case Missing => Outcome(None, Err(FileNotFound(path)))
    case Unreadable => Outcome(None, Err(FileUnreadable(path)))
    case Readable =>
      var req := BuildRequest(c, path, message, boundary);
      match send(req)
      case Err(reason) => Outcome(Some(req), Err(TransportFailed(reason)))
      case Ok(resp) =>
        if resp.status != STATUS_OK then Outcome(Some(req), Err(StatusFailed(resp.status)))
        else Outcome(Some(req), DecodeBody(resp.body))
  }

  /** Encode and decode build the same request apart from the endpoint and
      the message field. */
  lemma EncodeDecodeDiffer(c: Client, path: string, message: string, boundary: string)
    ensures var enc := BuildRequest(c, path, Some(message), boundary);
      var dec := BuildRequest(c, path, None, boundary);
      && enc.headers == dec.headers
      && enc.parts == dec.parts + [FieldPart("message", message)]
      && enc.url != dec.url
  {
    FormAddsMessage(Base(path), message);
    EndpointsDiffer(c.baseUrl, message);
  }
}

=== FILE: http.dfy ===
/** The vocabulary shared by the three HTTP clients (Go, Java, Python): the
    multipart request each builds, the response it gets back, the state of
    the local image file, and the outcome of a call, which records the
    request that was sent, if any. The transport itself is an oracle. */
module Http {
  import opened Common

  const ENCODE_PATH := "/v1/encode"
  const DECODE_PATH := "/v1/decode"
  const POST := "POST"
  const AUTHORIZATION := "Authorization"
  const BEARER := "Bearer "

  /** One part of a multipart form: the image file, or a text field. */
  datatype Part =
    | FilePart(field: string, filename: string)
    | FieldPart(field: string, value: string)

  /** A request as built, before it is sent. `headers` holds the headers the
      client sets itself. */
  datatype Request = Request(verb: string, url: string, parts: seq<Part>, headers: map<string, string>)

  /** The body of a response as a JSON parser sees it. */
  datatype Body = Parsed(value: Value) | Empty | Malformed

  datatype Response = Response(status: int, body: Body)

  /** The image path: missing, an openable file, or present but unreadable
      (a directory, say). */
  datatype FileState = Missing | Readable | Unreadable

  datatype ClientError =
    | FileNotFound(path: string)
    | FileUnreadable(path: string)
    | TransportFailed(reason: string)
    | StatusFailed(status: int)
    | ParseFailed
    | TypeFailed

  /** What a call did: the request it sent, if it got that far, and what it
      returned or raised. */
  datatype Outcome<T> = Outcome(sent: Option<Request>, result: Result<T, ClientError>)

  /** The transport: a request either fails or gets a response. */
  type Transport = Request -> Result<Response, string>

  /** The endpoint: encode when there is a message to embed, decode otherwise. */
  function Endpoint(message: Option<string>): string {
    if message.Some? then ENCODE_PATH else DECODE_PATH
  }

  /** The two endpoints are different URLs under any base. */
  lemma EndpointsDiffer(base: string, message: string)
    ensures base + Endpoint(Some(message)) != base + Endpoint(None)
  {
    assert (base + ENCODE_PATH)[|base| + 4] == 'e';
    assert (base + DECODE_PATH)[|base| + 4] == 'd';
  }

  /** The form the Go and Java clients send: the file, then the message when
      encoding. */
  function Form(filename: string, message: Option<string>): (parts: seq<Part>)
    ensures |parts| >= 1 && parts[0] == FilePart("file", filename)
    ensures message.None? <==> |parts| == 1
    ensures message.Some? ==> parts == [FilePart("file", filename), FieldPart("message", message.value)]
  {
    [FilePart("file", filename)] + (if message.Some? then [FieldPart("message", message.value)] else [])
  }

  /** The encoding form is the decoding form plus the message field. */
  lemma FormAddsMessage(filename: string, message: string)
    ensures Form(filename, Some(message)) == Form(filename, None) + [FieldPart("message", message)]
  {
  }

  /** The request carries `Authorization: Bearer <key>`. */
  predicate SendsBearer(r: Request, key: string) {
    AUTHORIZATION in r.headers && r.headers[AUTHORIZATION] == BEARER + key
  }
}

=== FILE: integrator.dfy ===
/** `TruthMarkIntegrator`, the entry point AI generation tools call: the tool
    label, the policy that a mandatory watermark either succeeds or raises,
    what a result shows when turned into a dictionary, batch padding, and the
    compliance report. Key generation, the payload builder, watermarking and
    the clock are oracles collected in an `Env`. */
module Integrator {
  import opened Common
  import Detector

  const UNKNOWN_VERSION := "unknown"
  const DEFAULT_STRENGTH := 15.0

  datatype Integrator = Integrator(aiTool: string, version: string, required: bool, strength: real)

  /** `TruthMarkIntegrator(ai_tool, required, strength, version=...)`: a
      missing or empty version reads "unknown". */
  function NewIntegrator(aiTool: string, required: bool, strength: real, version: Option<string>): (i: Integrator)
    ensures i.aiTool == aiTool && i.required == required && i.strength == strength
    ensures i.version != ""
    ensures Detector.Usable(version) <==> Some(i.version) == version
    ensures !Detector.Usable(version) ==> i.version == UNKNOWN_VERSION
  {
    Integrator(aiTool, if Detector.Usable(version) then version.value else UNKNOWN_VERSION, required, strength)
  }

  /** The label of a successful result: "<tool> <version>". */
  function ToolLabel(i: Integrator): (s: string)
    ensures |s| == |i.aiTool| + 1 + |i.version|
    ensures s[..|i.aiTool|] == i.aiTool && s[|i.aiTool|] == ' ' && s[|i.aiTool| + 1..] == i.version
  {
    i.aiTool + " " + i.version
  }

  // ---------------------------------------------------------------------
  // Results

  /** A failed watermark: the tool and the text of the exception that
      stopped it. `FailureMessage` and `MandatoryMessage` give the messages
      a result or a raise shows. */
  datatype Failure = Failure(aiTool: string, cause: string)

  datatype IntegrationResult = IntegrationResult(
    success: bool,
    watermarkedImage: Option<Bytes>,
    truthmarkId: Value,
    aiTool: string,
    timestamp: Value,
    metadata: Object,
    encryptionKey: string,
    psnr: Value,
    embeddingLocations: Value,
    errorMessage: Option<Failure>)

  const DICT_KEYS: set<string> :=
    {"success", "truthmark_id", "ai_tool", "timestamp", "metadata", "psnr",
     "embedding_locations", "error_message"}

  /** `to_dict`: the public fields only. */
  function ToDict(r: IntegrationResult): (d: Object)
    ensures d.Keys == DICT_KEYS
    ensures "watermarked_image" !in d && "encryption_key" !in d
  {
    map["success" := Bool(r.success),
        "truthmark_id" := r.truthmarkId,
        "ai_tool" := Str(r.aiTool),
        "timestamp" := r.timestamp,
        "metadata" := Obj(r.metadata),
        "psnr" := r.psnr,
        "embedding_locations" := r.embeddingLocations,
        "error_message" := if r.errorMessage.Some? then Str(FailureMessage(r.errorMessage.value)) else Null]
  }

  /** The values of the dictionary: the outcome, the tool and the failure
      message. */
  lemma DictOutcome(r: IntegrationResult)
    ensures var d := ToDict(r);
      && d["success"] == Bool(r.success) && d["ai_tool"] == Str(r.aiTool)
      && d["error_message"] == (if r.errorMessage.Some? then Str(FailureMessage(r.errorMessage.value)) else Null)
  {
  }

  /** The values of the dictionary: the identifier, the timestamp and the
      metadata. */
  lemma DictStamps(r: IntegrationResult)
    ensures var d := ToDict(r);
      && d["truthmark_id"] == r.truthmarkId && d["timestamp"] == r.timestamp
      && d["metadata"] == Obj(r.metadata)
  {
  }

  /** The dictionary form shows nothing of the key or the image: two
      results that differ only there give the same dictionary. */
  lemma ToDictHidesSecrets(r: IntegrationResult, key: string, image: Option<Bytes>)
    ensures ToDict(r.(encryptionKey := key, watermarkedImage := image)) == ToDict(r)
  {
  }

  // ---------------------------------------------------------------------
  // Mandatory embedding

  /** The outside world of one `embed_mandatory` call: loading the image
      (which fails only for a path), the generated key, the clock before and
      after a failure, the payload builder and the watermarking step, which
      returns the marked image and its info dictionary. */
  datatype Env = Env(
    image: Result<Bytes, string>,
    key: string,
    now: string,
    failedAt: string,
    build: (string, Object) -> Result<Object, string>,
    embed: (Bytes, Object, string) -> Result<(Bytes, Object), string>)

  /** The `payload_data` dictionary, which is also the result's metadata.
      `metadata` and `custom_data` fall back to `{}` when falsy. */
  function PayloadData(i: Integrator, now: string, userId: Value, promptHash: Value,
                       metadata: Value, customData: Value): (d: Object)
    ensures d.Keys == {"ai_tool", "ai_version", "timestamp", "user_id", "prompt_hash", "metadata", "custom_data"}
    ensures d["ai_tool"] == Str(i.aiTool) && d["ai_version"] == Str(i.version)
    ensures d["user_id"] == userId && d["prompt_hash"] == promptHash
    ensures Truthy(metadata) ==> d["metadata"] == metadata
    ensures !Truthy(metadata) ==> d["metadata"] == Obj(map[])
    ensures Truthy(customData) ==> d["custom_data"] == customData
    ensures !Truthy(customData) ==> d["custom_data"] == Obj(map[])
  {
    map["ai_tool" := Str(i.aiTool),
        "ai_version" := Str(i.version),
        "timestamp" := Str(now + "Z"),
        "user_id" := userId,
        "prompt_hash" := promptHash,
        "metadata" := Or(metadata, Obj(map[])),
        "custom_data" := Or(customData, Obj(map[]))]
  }

  /** The text of a soft failure's `error_message`. */
  function FailureMessage(f: Failure): string {
    "Failed to watermark image from " + f.aiTool + ": " + f.cause
  }

  /** The text of the `RuntimeError` a required watermark raises. */
  function MandatoryMessage(f: Failure): string {
    "MANDATORY WATERMARKING FAILED: " + FailureMessage(f) + "\n"
    + "This AI tool (" + f.aiTool + ") requires TruthMark watermarking. "
    + "Content cannot be generated without watermark."
  }

  /** Whether the success log's `{psnr:.2f}` accepts the value: numbers and
      booleans do; `None`, strings, lists and dicts raise. */
  predicate Formattable(v: Value) {
    v.Int? || v.Num? || v.Bool?
  }

  /** The text of the exception `{psnr:.2f}` raises for a value it rejects:
      a string has its own format codes, every other type has none. */
  function FormatError(v: Value): string {
    if v.Str? then "Unknown format code 'f' for object of type 'str'"
    else "unsupported format string passed to " + TypeName(v) + ".__format__"
  }

  /** The steps of a successful call for the tool label `tool` and the payload
      data `data`, or the message of the first failure. A built payload
      without "truthmark_id" or "timestamp" fails on lookup, and the success
      log fails on a "psnr" it cannot format as a number. */
  function Attempt(tool: string, data: Object, env: Env): (r: Result<IntegrationResult, string>)
    ensures r.Ok? ==> r.value.success && r.value.errorMessage.None? && r.value.watermarkedImage.Some?
    ensures r.Ok? ==> r.value.encryptionKey == env.key && r.value.aiTool == tool
    ensures r.Ok? ==> r.value.metadata == data
    ensures env.image.Err? ==> r == Err(env.image.error)
    ensures r.Ok? <==>
      && env.image.Ok?
      && env.build(tool, data).Ok?
      && var payload := env.build(tool, data).value;
      && env.embed(env.image.value, payload, env.key).Ok?
      && "truthmark_id" in payload && "timestamp" in payload
      && Formattable(GetOr(env.embed(env.image.value, payload, env.key).value.1, "psnr", Int(0)))
    ensures r.Ok? ==> var payload := env.build(tool, data).value;
      r.value.truthmarkId == payload["truthmark_id"] && r.value.timestamp == payload["timestamp"]
    // a success carries what the embed returned: the marked image, its psnr
    // and its embedding locations (0 when not reported)
    ensures r.Ok? ==>
      var marked := env.embed(env.image.value, env.build(tool, data).value, env.key).value;
      && r.value.watermarkedImage == Some(marked.0)
      && r.value.psnr == Get(marked.1, "psnr")
      && r.value.embeddingLocations == GetOr(marked.1, "embedding_locations", Int(0))
    // a failure is the message of the first step that raised
    ensures env.image.Ok? && env.build(tool, data).Err? ==> r == Err(env.build(tool, data).error)
    ensures env.image.Ok? && env.build(tool, data).Ok? ==>
      var payload := env.build(tool, data).value;
      var marked := env.embed(env.image.value, payload, env.key);
      && (marked.Err? ==> r == Err(marked.error))
      && (marked.Ok? && "truthmark_id" !in payload ==> r == Err("'truthmark_id'"))
      && (marked.Ok? && "truthmark_id" in payload && "timestamp" !in payload ==> r == Err("'timestamp'"))
      && (marked.Ok? && "truthmark_id" in payload && "timestamp" in payload
          && !Formattable(GetOr(marked.value.1, "psnr", Int(0))) ==>
            r == Err(FormatError(marked.value.1["psnr"])))
  {
    match env.image
    case Err(e) => Err(e)
    case Ok(pixels) =>
      match env.build(tool, data)
      case Err(e) => Err(e)
      case Ok(payload) =>
        match env.embed(pixels, payload, env.key)
        case Err(e) => Err(e)
        case Ok(marked) =>
          var (watermarked, info) := marked;
          if "truthmark_id" !in payload then Err("'truthmark_id'")
          else if "timestamp" !in payload then Err("'timestamp'")
          else if !Formattable(GetOr(info, "psnr", Int(0))) then Err(FormatError(info["psnr"]))
          else Ok(IntegrationResult(true, Some(watermarked), payload["truthmark_id"], tool,
                                    payload["timestamp"], data, env.key,
                                    Get(info, "psnr"), GetOr(info, "embedding_locations", Int(0)), None))
  }

  /** A watermark whose info reports a "psnr" of `None` fails after the
      image was marked: the success log cannot format it. */
  lemma NullPsnrFails(tool: string, data: Object, env: Env)
    requires env.image.Ok? && env.build(tool, data).Ok?
    requires var payload := env.build(tool, data).value;
      && env.embed(env.image.value, payload, env.key) == Ok((env.image.value, map["psnr" := Null]))
      && "truthmark_id" in payload && "timestamp" in payload
    ensures Attempt(tool, data, env) == Err("unsupported format string passed to NoneType.__format__")
  {
    var info: Object := map["psnr" := Null];
    assert GetOr(info, "psnr", Int(0)) == Null;
    NoneFormatError();
  }

  lemma NoneFormatError()
    ensures FormatError(Null) == "unsupported format string passed to NoneType.__format__"
  {
  }

  /** `embed_mandatory`: `Err` is the `RuntimeError` raised when a required
      watermark fails; an optional one fails softly with a result that holds
      no key, no identifier and no metadata. */
  function EmbedMandatory(i: Integrator, userId: Value, promptHash: Value, metadata: Value,
                          customData: Value, env: Env): (r: Result<IntegrationResult, Failure>)
    // a required watermark never comes back unsuccessful
    ensures i.required && r.Ok? ==> r.value.success
    ensures r.Err? ==> i.required && r.error.aiTool == i.aiTool
    ensures r.Ok? && r.value.success ==>
      && r.value.aiTool == ToolLabel(i)
      && r.value.watermarkedImage.Some?
      && r.value.encryptionKey == env.key
      && r.value.metadata == PayloadData(i, env.now, userId, promptHash, metadata, customData)
    ensures r.Ok? && !r.value.success ==>
      && !i.required
      && r.value.truthmarkId == Str("") && r.value.encryptionKey == ""
      && r.value.metadata == map[] && r.value.aiTool == i.aiTool
      && r.value.watermarkedImage.None?
      && r.value.errorMessage.Some? && r.value.errorMessage.value.aiTool == i.aiTool
    ensures env.image.Err? ==> if i.required then r.Err? else r.Ok? && !r.value.success
    // the call succeeds exactly when its steps do, and otherwise reports their failure
    ensures var a := Attempt(ToolLabel(i), PayloadData(i, env.now, userId, promptHash, metadata, customData), env);
      && (r.Ok? && r.value.success <==> a.Ok?)
      && (a.Ok? ==> r == Ok(a.value))
      && (a.Err? && i.required ==> r == Err(Failure(i.aiTool, a.error)))
      && (a.Err? && !i.required ==> r.Ok? && r.value.errorMessage == Some(Failure(i.aiTool, a.error)))
  {
    match Attempt(ToolLabel(i), PayloadData(i, env.now, userId, promptHash, metadata, customData), env)
    case Ok(result) => Ok(result)
    case Err(cause) =>
      if i.required then Err(Failure(i.aiTool, cause))
      else Ok(IntegrationResult(false, None, Str(""), i.aiTool, Str(env.failedAt + "Z"), map[], "",
                                Null, Int(0), Some(Failure(i.aiTool, cause))))
  }

  /** The `required` flag changes only what a failure looks like: a call
      succeeds with it exactly when it succeeds without it, with the same
      result, and fails with a raise exactly when it fails softly without,
      for the same reason. */
  lemma RequiredOnlyChangesFailures(i: Integrator, userId: Value, promptHash: Value, metadata: Value,
                                    customData: Value, env: Env)
    ensures var strict := EmbedMandatory(i.(required := true), userId, promptHash, metadata, customData, env);
      var soft := EmbedMandatory(i.(required := false), userId, promptHash, metadata, customData, env);
      && (strict.Ok? <==> soft.Ok? && soft.value.success)
      && (strict.Ok? ==> strict == soft)
      && (strict.Err? ==> soft.Ok? && soft.value.errorMessage == Some(strict.error))
  {
    var strict, soft := i.(required := true), i.(required := false);
    var data := PayloadData(i, env.now, userId, promptHash, metadata, customData);
    assert ToolLabel(strict) == ToolLabel(soft) == ToolLabel(i);
    assert PayloadData(strict, env.now, userId, promptHash, metadata, customData) == data;
    assert PayloadData(soft, env.now, userId, promptHash, metadata, customData) == data;
    var a := Attempt(ToolLabel(i), data, env);
    var r := EmbedMandatory(strict, userId, promptHash, metadata, customData, env);
    var q := EmbedMandatory(soft, userId, promptHash, metadata, customData, env);
    if a.Ok? {
      assert r == Ok(a.value) && q == Ok(a.value);
    } else {
      assert r == Err(Failure(i.aiTool, a.error));
      assert q.Ok? && !q.value.success && q.value.errorMessage == Some(Failure(i.aiTool, a.error));
    }
  }

  // ---------------------------------------------------------------------
  // Batches

  /** `metadata_list or [None] * len(images)`: a missing or empty list is
      replaced by one `None` per image. */
  function Padded(list: Option<seq<Value>>, n: nat): (r: seq<Value>)
    ensures list.None? || |list.value| == 0 ==> |r| == n && forall k :: 0 <= k < n ==> r[k] == Null
    ensures list.Some? && |list.value| > 0 ==> r == list.value
  {
    if list.None? || |list.value| == 0 then seq(n, _ => Null) else list.value
  }

  function Min3(a: nat, b: nat, c: nat): nat {
    Min(a, Min(b, c))
  }

  /** The index of the first error at or after `from`, or `|calls|` when
      every call from there on succeeded. */
  function FirstErr<T, E>(calls: seq<Result<T, E>>, from: nat): (k: nat)
    requires from <= |calls|
    requires forall l :: 0 <= l < from ==> calls[l].Ok?
    ensures from <= k <= |calls|
    ensures forall l :: 0 <= l < k ==> calls[l].Ok?
    ensures k < |calls| ==> calls[k].Err?
    decreases |calls| - from
  {
    if from == |calls| || calls[from].Err? then from
    else FirstErr(calls, from + 1)
  }

  /** A loop that appends each call's result and stops at the first
      raise: every value in order, or the first error. */
  function Collect<T, E>(calls: seq<Result<T, E>>): (r: Result<seq<T>, E>)
    ensures r.Ok? <==> forall j :: 0 <= j < |calls| ==> calls[j].Ok?
    ensures r.Ok? ==> |r.value| == |calls| && forall j :: 0 <= j < |calls| ==> calls[j] == Ok(r.value[j])
    ensures r.Err? ==> exists j :: 0 <= j < |calls| && calls[j] == Err(r.error)
                                   && forall l :: 0 <= l < j ==> calls[l].Ok?
  {
    var k := FirstErr(calls, 0);
    if k < |calls| then Err(calls[k].error)
    else Ok(seq(|calls|, j requires 0 <= j < |calls| => calls[j].value))
  }

  /** The `embed_mandatory` calls of a batch, one per zipped triple. */
  function BatchCalls(i: Integrator, metas: seq<Value>, users: seq<Value>, envs: nat -> Env, n: nat)
    : (calls: seq<Result<IntegrationResult, Failure>>)
    requires n <= |metas| && n <= |users|
    ensures |calls| == n
    ensures forall j :: 0 <= j < n ==> calls[j] == EmbedMandatory(i, users[j], Null, metas[j], Null, envs(j))
  {
    seq(n, j requires 0 <= j < n => EmbedMandatory(i, users[j], Null, metas[j], Null, envs(j)))
  }

  /** `embed_batch`: images, metadata and user ids are zipped after padding
      and each triple goes through `embed_mandatory`; `envs(j)` is the
      outside world of the j-th call, its image included. */
  function EmbedBatch(i: Integrator, images: nat, metadataList: Option<seq<Value>>,
                      userIds: Option<seq<Value>>, envs: nat -> Env)
    : (r: Result<seq<IntegrationResult>, Failure>)
    ensures var metas, users := Padded(metadataList, images), Padded(userIds, images);
      && (r.Ok? ==> |r.value| == Min3(images, |metas|, |users|))
      && (r.Ok? ==> forall j :: 0 <= j < |r.value| ==>
            EmbedMandatory(i, users[j], Null, metas[j], Null, envs(j)) == Ok(r.value[j]))
      && (r.Err? ==> i.required)
      && (!i.required ==> r.Ok?)
    // a batch raises exactly when one of its calls does, and then with the
    // first such call's failure
    ensures var metas, users := Padded(metadataList, images), Padded(userIds, images);
      var calls := BatchCalls(i, metas, users, envs, Min3(images, |metas|, |users|));
      && (r.Err? <==> exists j :: 0 <= j < |calls| && calls[j].Err?)
      && (r.Err? ==> exists j :: 0 <= j < |calls| && calls[j] == Err(r.error)
                      && forall l :: 0 <= l < j ==> calls[l].Ok?)
  {
    var metas, users := Padded(metadataList, images), Padded(userIds, images);
    Collect(BatchCalls(i, metas, users, envs, Min3(images, |metas|, |users|)))
  }

  /** With both lists omitted there is one result per image, in order. */
  lemma BatchWithoutLists(i: Integrator, images: nat, envs: nat -> Env)
    ensures var r := EmbedBatch(i, images, None, None, envs);
      r.Ok? ==> |r.value| == images
  {
    assert Min3(images, images, images) == images;
  }

  // ---------------------------------------------------------------------
  // Compliance report

  const VERIFICATION_FLAGS: set<string> :=
    {"encrypted", "tamper_resistant", "survives_compression", "survives_cropping", "survives_editing"}

  /** The report's "generator" block: who produced the image. */
  function GeneratorBlock(i: Integrator): (g: Object)
    ensures g.Keys == {"ai_tool", "version", "watermarking_required"}
    ensures g["ai_tool"] == Str(i.aiTool) && g["version"] == Str(i.version)
    ensures g["watermarking_required"] == Bool(i.required)
  {
    map["ai_tool" := Str(i.aiTool), "version" := Str(i.version), "watermarking_required" := Bool(i.required)]
  }

  /** The report's "watermark" block: the result's identifier, timestamp,
      quality and locations, and the integrator's strength. */
  function WatermarkBlock(i: Integrator, r: IntegrationResult): (w: Object)
    ensures w.Keys == {"truthmark_id", "timestamp", "embedding_strength", "quality_psnr_db", "embedding_locations"}
    ensures w["truthmark_id"] == r.truthmarkId && w["timestamp"] == r.timestamp
    ensures w["embedding_strength"] == Num(i.strength)
    ensures w["quality_psnr_db"] == r.psnr && w["embedding_locations"] == r.embeddingLocations
  {
    map["truthmark_id" := r.truthmarkId,
        "timestamp" := r.timestamp,
        "embedding_strength" := Num(i.strength),
        "quality_psnr_db" := r.psnr,
        "embedding_locations" := r.embeddingLocations]
  }

  /** The report's "verification" block: every protection claimed. */
  function VerificationBlock(): (v: Object)
    ensures v.Keys == VERIFICATION_FLAGS
    ensures forall f :: f in v ==> v[f] == Bool(true)
  {
    map["encrypted" := Bool(true),
        "tamper_resistant" := Bool(true),
        "survives_compression" := Bool(true),
        "survives_cropping" := Bool(true),
        "survives_editing" := Bool(true)]
  }

  /** `get_compliance_report`; `generatedAt` is the clock reading. */
  function ComplianceReport(i: Integrator, r: IntegrationResult, generatedAt: string): (rep: Object)
    ensures rep.Keys == {"compliance_version", "standard", "generator", "watermark", "verification",
                         "metadata", "generated_at"}
  {
    map["compliance_version" := Str("1.0"),
        "standard" := Str("TruthMark AI Provenance Standard"),
        "generator" := Obj(GeneratorBlock(i)),
        "watermark" := Obj(WatermarkBlock(i, r)),
        "verification" := Obj(VerificationBlock()),
        "metadata" := Obj(r.metadata),
        "generated_at" := Str(generatedAt + "Z")]
  }

  /** The report's generator and watermark blocks. */
  lemma ReportBlocks(i: Integrator, r: IntegrationResult, generatedAt: string)
    ensures var rep := ComplianceReport(i, r, generatedAt);
      && rep["generator"] == Obj(GeneratorBlock(i))
      && rep["watermark"] == Obj(WatermarkBlock(i, r))
  {
  }

  /** The report's version, its verification block and the result's
      metadata. */
  lemma ReportClaims(i: Integrator, r: IntegrationResult, generatedAt: string)
    ensures var rep := ComplianceReport(i, r, generatedAt);
      && rep["compliance_version"] == Str("1.0")
      && rep["verification"] == Obj(VerificationBlock())
      && rep["metadata"] == Obj(r.metadata)
  {
  }

  /** The report agrees with the result's dictionary on the identifier, the
      timestamp and the metadata, claims every protection even for a failed
      result, and never contains the key. */
  lemma ReportMatchesResult(i: Integrator, r: IntegrationResult, generatedAt: string, key: string)
    ensures var rep := ComplianceReport(i, r, generatedAt);
      && rep["watermark"].fields["truthmark_id"] == ToDict(r)["truthmark_id"]
      && rep["watermark"].fields["timestamp"] == ToDict(r)["timestamp"]
      && rep["metadata"] == ToDict(r)["metadata"]
      && (forall f :: f in VERIFICATION_FLAGS ==> rep["verification"].fields[f] == Bool(true))
      && ComplianceReport(i, r.(encryptionKey := key), generatedAt) == rep
  {
    ReportBlocks(i, r, generatedAt);
    ReportClaims(i, r, generatedAt);
    DictStamps(r);
    assert WatermarkBlock(i, r.(encryptionKey := key)) == WatermarkBlock(i, r);
  }

  // ---------------------------------------------------------------------
  // Convenience entry point

  /** `watermark_ai_generation`: a required integrator with the defaults. Its
      own check for an unsuccessful result can never fire, because a
      required integrator raises instead of returning one. */
  function WatermarkAiGeneration(aiTool: string, metadata: Object, env: Env): (r: Result<(Bytes, string), Failure>)
    ensures r.Ok? ==> r.value.1 == env.key
    ensures r.Ok? <==> EmbedMandatory(NewIntegrator(aiTool, true, DEFAULT_STRENGTH, None), Null, Null,
                                      Obj(metadata), Null, env).Ok?
    // the pair is the result's watermarked image and key, and a raise is
    // embed_mandatory's own
    ensures var m := EmbedMandatory(NewIntegrator(aiTool, true, DEFAULT_STRENGTH, None), Null, Null,
                                    Obj(metadata), Null, env);
      && (r.Ok? ==> m.value.watermarkedImage == Some(r.value.0) && m.value.encryptionKey == r.value.1)
      && (r.Err? ==> r.error == m.error)
  {
    var i := NewIntegrator(aiTool, true, DEFAULT_STRENGTH, None);
    match EmbedMandatory(i, Null, Null, Obj(metadata), Null, env)
    case Err(e) => Err(e)
    case Ok(result) =>
      if !result.success then
        assert false;
        Err(Failure(aiTool, "Watermarking failed"))
      else Ok((result.watermarkedImage.value, result.encryptionKey))
  }
}

=== FILE: java_client.dfy ===
/** The Java client (`TruthMarkClient.java`): the default `Config`, the
    requests `encode` and `decode` build, and how a response becomes a
    result or an `IOException`. Every 2xx response is parsed. */
module JavaClient {
  import opened Common
  import opened Http

  const DEFAULT_BASE_URL := "http://localhost:8000"
  const DEFAULT_TIMEOUT_SECONDS := 30

  /** `Config`: public fields, so `baseUrl` and `apiKey` may be null. */
  datatype Config = Config(baseUrl: Option<string>, apiKey: Option<string>, timeoutSeconds: int)

  datatype Client = Client(baseUrl: Option<string>, apiKey: Option<string>, timeoutSeconds: int)

  /** `new Config()`. */
  function DefaultConfig(): (cfg: Config)
    ensures cfg.baseUrl == Some(DEFAULT_BASE_URL) && cfg.apiKey.None?
    ensures cfg.timeoutSeconds == DEFAULT_TIMEOUT_SECONDS
  {
    Config(Some(DEFAULT_BASE_URL), None, DEFAULT_TIMEOUT_SECONDS)
  }

  /** `new TruthMarkClient(config)` copies the three settings unchanged. */
  function NewClient(cfg: Config): (c: Client)
    ensures c.baseUrl == cfg.baseUrl && c.apiKey == cfg.apiKey && c.timeoutSeconds == cfg.timeoutSeconds
  {
    Client(cfg.baseUrl, cfg.apiKey, cfg.timeoutSeconds)
  }

  /** `new TruthMarkClient()`: the default configuration, with no key. */
  lemma NoArgClient()
    ensures NewClient(DefaultConfig()) == Client(Some(DEFAULT_BASE_URL), None, DEFAULT_TIMEOUT_SECONDS)
  {
  }

  /** Java's string concatenation writes a null reference as "null". */
  function Text(s: Option<string>): string {
    if s.Some? then s.value else "null"
  }

  /** `File.getName()`: the last name of the path once `File` has dropped
      trailing separators; "" for the root. */
  function FileName(path: string): (name: string)
    ensures forall j :: 0 <= j < |name| ==> name[j] != '/'
    ensures (forall j :: 0 <= j < |path| ==> path[j] != '/') ==> name == path
    ensures LastElement(RStrip(path, '/'), '/', name)
  {
    var trimmed := RStrip(path, '/');
    assert (forall j :: 0 <= j < |path| ==> path[j] != '/') ==>
             trimmed == path && LastIndex(trimmed, '/') == -1;
    AfterLast(trimmed, '/')
  }

  /** The request `encode` (a message) or `decode` (none) builds. */
  function BuildRequest(c: Client, path: string, message: Option<string>): (r: Request)
    ensures r.verb == POST && r.url == Text(c.baseUrl) + Endpoint(message)
    ensures r.parts == Form(FileName(path), message)
    ensures AUTHORIZATION in r.headers <==> c.apiKey.Some?
    ensures c.apiKey.Some? ==> SendsBearer(r, c.apiKey.value)
    ensures r.headers.Keys <= {AUTHORIZATION}
  {
    Request(POST, Text(c.baseUrl) + Endpoint(message), Form(FileName(path), message),
            if c.apiKey.Some? then map[AUTHORIZATION := BEARER + c.apiKey.value] else map[])
  }

  /** An empty key is still sent, as "Bearer ". */
  lemma EmptyKeyIsSent(c: Client, path: string, message: Option<string>)
    requires c.apiKey == Some("")
    ensures BuildRequest(c, path, message).headers[AUTHORIZATION] == "Bearer "
  {
  }

  /** OkHttp's `isSuccessful`: a 2xx code. */
  predicate Successful(status: int) {
    200 <= status < 300
  }

  /** `gson.fromJson(text, ResultClass)`: an empty body or `null` gives a
      null result, an object gives a result, anything else throws. */
  function FromJson(body: Body): (r: Result<Option<Object>, ClientError>)
    ensures r.Ok? && r.value.None? <==> body.Empty? || body == Parsed(Null)
    ensures r.Ok? && r.value.Some? <==> body.Parsed? && body.value.Obj?
    ensures r.Ok? && r.value.Some? ==> r.value.value == body.value.fields
    ensures r.Err? ==> r.error == ParseFailed
  {
    match body
    case Empty => Ok(None)
    case Parsed(Null) => Ok(None)
    case Parsed(Obj(fields)) => Ok(Some(fields))
    case _ => Err(ParseFailed)
  }

  /** `encode` / `decode`: a missing file throws before any request is built.
      OkHttp connects before it writes the body, so a connection failure is
      reported first, and only then does a file that exists but cannot be
      read fail. A code outside 2xx throws "API Error: <code>"; any 2xx body
      is parsed. */
  function Call(c: Client, path: string, message: Option<string>, file: FileState,
                send: Transport): (o: Outcome<Option<Object>>)
    ensures file == Missing <==> o.sent.None?
    ensures file == Missing ==> o.result == Err(FileNotFound(path))
    ensures file != Missing ==> o.sent == Some(BuildRequest(c, path, message))
    ensures o.result.Ok? ==>
      && file == Readable
      && send(o.sent.value).Ok?
      && Successful(send(o.sent.value).value.status)
      && FromJson(send(o.sent.value).value.body) == o.result
    ensures file == Unreadable && send(o.sent.value).Ok? ==> o.result == Err(FileUnreadable(path))
    ensures file != Missing && send(o.sent.value).Err? ==>
              o.result == Err(TransportFailed(send(o.sent.value).error))
    ensures file == Readable && send(o.sent.value).Ok? && !Successful(send(o.sent.value).value.status) ==>
              o.result == Err(StatusFailed(send(o.sent.value).value.status))
    ensures file == Readable && send(o.sent.value).Ok? && Successful(send(o.sent.value).value.status) ==>
              o.result == FromJson(send(o.sent.value).value.body)
  {
    match file
    case Missing => Outcome(None, Err(FileNotFound(path)))
    case Unreadable =>
      var req := BuildRequest(c, path, message);
      (match send(req)
       case Err(reason) => Outcome(Some(req), Err(TransportFailed(reason)))
       case Ok(_) => Outcome(Some(req), Err(FileUnreadable(path))))
    case Readable =>
      var req := BuildRequest(c, path, message);
      match send(req)
      case Err(reason) => Outcome(Some(req), Err(TransportFailed(reason)))
      case Ok(resp) =>
        if !Successful(resp.status) then Outcome(Some(req), Err(StatusFailed(resp.status)))
        else Outcome(Some(req), FromJson(resp.body))
  }
}

=== FILE: jpeg_quality.dfy ===
/** The embedder's format-preservation parameters: the save settings chosen
    per image format, the JPEG quality estimated from bytes per pixel, and the
    binary search for a JPEG quality whose output size matches the input's.
    Encoding an image at a quality is an oracle from quality to byte size. */
module JpegQuality {
  import opened Common

  // ---------------------------------------------------------------------
  // Quality estimate

  /** `_estimate_jpeg_quality`: the bytes-per-pixel thresholds 2.0, 1.5, 1.0
      and 0.5, compared by cross-multiplication on the exact ratio. An image without
      pixels divides by zero, which makes the embed call fail: `None`. */
  function EstimateQuality(fileSize: nat, pixels: nat): (q: Option<int>)
    ensures q.None? <==> pixels == 0
    ensures q.Some? ==> q.value in {70, 75, 85, 90, 95}
  {
    if pixels == 0 then None
    else if fileSize > 2 * pixels then Some(95)
    else if 2 * fileSize > 3 * pixels then Some(90)
    else if fileSize > pixels then Some(85)
    else if 2 * fileSize > pixels then Some(75)
    else Some(70)
  }

  /** Reference definition: the same step function over the exact ratio. */
  function QualityForRatio(bpp: real): int {
    if bpp > 2.0 then 95
    else if bpp > 1.5 then 90
    else if bpp > 1.0 then 85
    else if bpp > 0.5 then 75
    else 70
  }

  lemma RatioAbove(f: nat, p: nat, num: nat, den: nat)
    requires p > 0 && den > 0
    ensures (f as real / p as real > num as real / den as real) <==> den * f > num * p
  {
    var x, y := f as real / p as real, num as real / den as real;
    assert x * p as real == f as real;
    assert y * den as real == num as real;
    assert (den * f) as real == x * (p as real * den as real);
    assert (num * p) as real == y * (p as real * den as real);
    assert p as real * den as real > 0.0;
  }

  /** The integer thresholds agree with the real-valued `file_size / pixels`. */
  lemma EstimateMatchesRatio(fileSize: nat, pixels: nat)
    requires pixels > 0
    ensures EstimateQuality(fileSize, pixels) == Some(QualityForRatio(fileSize as real / pixels as real))
  {
    RatioAbove(fileSize, pixels, 2, 1);
    RatioAbove(fileSize, pixels, 3, 2);
    RatioAbove(fileSize, pixels, 1, 1);
    RatioAbove(fileSize, pixels, 1, 2);
  }

  /** A larger file of the same pixel count never gets a lower quality. */
  lemma EstimateMonotone(small: nat, large: nat, pixels: nat)
    requires pixels > 0 && small <= large
    ensures EstimateQuality(small, pixels).value <= EstimateQuality(large, pixels).value
  {
  }

  // ---------------------------------------------------------------------
  // Per-format settings

  /** The format-related fields of the embedder's configuration. */
  datatype FormatConfig = FormatConfig(
    jpegQuality: Option<int>,
    jpegSubsampling: Value,
    pngCompression: Option<int>,
    webpQuality: Option<int>,
    preserveMetadata: bool)

  /** Keys a format contributes before metadata. */
  function FormatKeys(format: Option<string>): set<string> {
    if format == Some("JPEG") then {"quality", "subsampling"}
    else if format == Some("PNG") then {"compress_level"}
    else if format == Some("WEBP") then {"quality"}
    else {}
  }

  /** `_detect_format_settings`: configured values win over the defaults
      (JPEG quality estimated, subsampling 0, PNG level 6, WEBP quality 90),
      and "exif"/"icc_profile" are copied from the image info only when
      metadata is preserved. `None` when the quality estimate divides by zero. */
  function FormatSettings(format: Option<string>, cfg: FormatConfig, info: Object,
                          fileSize: nat, pixels: nat): (r: Option<Object>)
    ensures r.None? <==> format == Some("JPEG") && cfg.jpegQuality.None? && pixels == 0
    ensures r.Some? ==>
      r.value.Keys == FormatKeys(format) + (if cfg.preserveMetadata then {"exif", "icc_profile"} else {})
    ensures r.Some? && format == Some("JPEG") ==>
      && r.value["quality"] == Int(if cfg.jpegQuality.Some? then cfg.jpegQuality.value
                                   else EstimateQuality(fileSize, pixels).value)
      && r.value["subsampling"] == (if Truthy(cfg.jpegSubsampling) then cfg.jpegSubsampling else Int(0))
    ensures r.Some? && format == Some("PNG") ==>
      r.value["compress_level"] == Int(if cfg.pngCompression.Some? then cfg.pngCompression.value else 6)
    ensures r.Some? && format == Some("WEBP") ==>
      r.value["quality"] == Int(if cfg.webpQuality.Some? then cfg.webpQuality.value else 90)
    ensures r.Some? && cfg.preserveMetadata ==>
      r.value["exif"] == Get(info, "exif") && r.value["icc_profile"] == Get(info, "icc_profile")
  {
    var base: Option<Object> :=
      if format == Some("JPEG") then
        var quality := if cfg.jpegQuality.Some? then Some(cfg.jpegQuality.value)
                       else EstimateQuality(fileSize, pixels);
        if quality.None? then None
        else Some(map["quality" := Int(quality.value),
                      "subsampling" := if Truthy(cfg.jpegSubsampling) then cfg.jpegSubsampling else Int(0)])
      else if format == Some("PNG") then
        Some(map["compress_level" := Int(if cfg.pngCompression.Some? then cfg.pngCompression.value else 6)])
      else if format == Some("WEBP") then
        Some(map["quality" := Int(if cfg.webpQuality.Some? then cfg.webpQuality.value else 90)])
      else
        Some(map[]);
    if base.None? then None
    else if cfg.preserveMetadata then
      Some(base.value["exif" := Get(info, "exif")]["icc_profile" := Get(info, "icc_profile")])
    else base
  }

  // ---------------------------------------------------------------------
  // Binary search for a size-matching quality

  const MAX_ITERATIONS := 10
  const LOW_START := 70
  const HIGH_START := 95
  const BEST_START := 85

  /** Encoded size in bytes at a given JPEG quality. */
  type SizeAt = int -> nat

  datatype SearchState = SearchState(low: int, high: int, best: int)

  const START := SearchState(LOW_START, HIGH_START, BEST_START)

  function Mid(s: SearchState): int {
    (s.low + s.high) / 2
  }

  /** The bounds the search keeps: `low` and `high` may cross, by at most two. */
  predicate InRange(s: SearchState) {
    && LOW_START <= s.low <= HIGH_START + 1
    && LOW_START - 2 <= s.high <= HIGH_START
    && s.low <= s.high + 2
  }

  /** `abs(current_size - target_size) <= tolerance`. */
  predicate Within(size: nat, target: nat, tolerance: real) {
    (if size >= target then size - target else target - size) as real <= tolerance
  }

  /** One narrowing step after probing the middle quality: too large moves
      `high` below it, otherwise `low` moves above it and it becomes the best. */
  function Narrow(s: SearchState, size: nat, target: nat): (t: SearchState)
    requires InRange(s)
    ensures InRange(t)
    ensures t.low >= s.low && t.high <= s.high
    ensures size > target ==> t.high < Mid(s) && t.best == s.best
    ensures size <= target ==> t.low > Mid(s) && t.best == Mid(s)
  {
    if size > target then SearchState(s.low, Mid(s) - 1, s.best)
    else SearchState(Mid(s) + 1, s.high, Mid(s))
  }

  /** Every probe of an in-range state lies in [69, 95]: one below the
      intended floor of 70, because the loop keeps going after the bounds cross. */
  lemma MidBounds(s: SearchState)
    requires InRange(s)
    ensures LOW_START - 1 <= Mid(s) <= HIGH_START
  {
  }

  /** The quality a search returns and the qualities it probed, in order. */
  datatype Outcome = Outcome(quality: int, probes: seq<int>)

  /** An outcome preceded by one more probe. */
  function Probed(mid: int, o: Outcome): Outcome {
    Outcome(o.quality, [mid] + o.probes)
  }

  /** Reference definition of the search: the quality returned and the
      qualities probed, with `n` probes left. */
  function SearchFrom(s: SearchState, n: nat, sizeAt: SizeAt, target: nat, tolerance: real)
    : (r: Outcome)
    requires InRange(s)
    decreases n
  {
    if n == 0 then Outcome(s.best, [])
    else
      var mid := Mid(s);
      if Within(sizeAt(mid), target, tolerance) then Outcome(mid, [mid])
      else
        Probed(mid, SearchFrom(Narrow(s, sizeAt(mid), target), n - 1, sizeAt, target, tolerance))
  }

  /** The quality the loop remembers: scanning the probes front to back,
      each one whose size did not exceed the target replaces `default`.
      `LastFittingIsLast` states what that leaves. */
  function LastFitting(probes: seq<int>, sizeAt: SizeAt, target: nat, default: int): int
    decreases |probes|
  {
    if |probes| == 0 then default
    else LastFitting(probes[1..], sizeAt, target, if sizeAt(probes[0]) <= target then probes[0] else default)
  }

  /** The remembered quality is the last probe whose size did not exceed the
      target, or `default` when there is none. */
  lemma {:induction false} LastFittingIsLast(probes: seq<int>, sizeAt: SizeAt, target: nat, default: int)
    ensures var q := LastFitting(probes, sizeAt, target, default);
      && ((forall i :: 0 <= i < |probes| ==> sizeAt(probes[i]) > target) ==> q == default)
      && ((exists i :: 0 <= i < |probes| && sizeAt(probes[i]) <= target) ==>
            exists i :: 0 <= i < |probes| && q == probes[i] && sizeAt(probes[i]) <= target &&
              forall j :: i < j < |probes| ==> sizeAt(probes[j]) > target)
    decreases |probes|
  {
    if |probes| > 0 {
      var d := if sizeAt(probes[0]) <= target then probes[0] else default;
      var tail := probes[1..];
      LastFittingIsLast(tail, sizeAt, target, d);
      var q := LastFitting(probes, sizeAt, target, default);
      assert q == LastFitting(tail, sizeAt, target, d);
      assert forall i :: 1 <= i < |probes| ==> tail[i - 1] == probes[i];
      if exists i :: 1 <= i < |probes| && sizeAt(probes[i]) <= target {
        var i :| 1 <= i < |probes| && sizeAt(probes[i]) <= target;
        assert sizeAt(tail[i - 1]) <= target;
        var k :| 0 <= k < |tail| && q == tail[k] && sizeAt(tail[k]) <= target &&
          forall j :: k < j < |tail| ==> sizeAt(tail[j]) > target;
        assert q == probes[k + 1] && sizeAt(probes[k + 1]) <= target;
        assert forall j :: k + 1 < j < |probes| ==> sizeAt(probes[j]) > target by {
          forall j | k + 1 < j < |probes| ensures sizeAt(probes[j]) > target {
            assert probes[j] == tail[j - 1];
          }
        }
      } else if sizeAt(probes[0]) <= target {
        assert q == probes[0];
        assert forall j :: 0 < j < |probes| ==> sizeAt(probes[j]) > target;
      }
    }
  }

  /** One more probe in front: it becomes the remembered quality when its
      size does not exceed the target. */
  lemma LastFittingAfter(mid: int, rest: seq<int>, sizeAt: SizeAt, target: nat, default: int)
    ensures LastFitting([mid] + rest, sizeAt, target, default)
         == LastFitting(rest, sizeAt, target, if sizeAt(mid) <= target then mid else default)
  {
    assert ([mid] + rest)[1..] == rest;
  }

  /** An outcome preceded by several more probes. */
  function Prepend(ps: seq<int>, o: Outcome): Outcome {
    Outcome(o.quality, ps + o.probes)
  }

  lemma PrependProbed(ps: seq<int>, mid: int, o: Outcome)
    ensures Prepend(ps, Probed(mid, o)) == Prepend(ps + [mid], o)
  {
    assert ps + ([mid] + o.probes) == (ps + [mid]) + o.probes;
  }

  /** The search probes at most `n` qualities, starting with the middle one,
      and every probe and the answer lie in [69, 95]. */
  lemma {:induction false} SearchBounds(s: SearchState, n: nat, sizeAt: SizeAt, target: nat, tolerance: real)
    requires InRange(s)
    requires LOW_START - 1 <= s.best <= HIGH_START
    ensures var o := SearchFrom(s, n, sizeAt, target, tolerance);
      && |o.probes| <= n
      && (n > 0 ==> |o.probes| >= 1 && o.probes[0] == Mid(s))
      && (forall i :: 0 <= i < |o.probes| ==> LOW_START - 1 <= o.probes[i] <= HIGH_START)
      && LOW_START - 1 <= o.quality <= HIGH_START
    decreases n
  {
    if n > 0 {
      var mid := Mid(s);
      MidBounds(s);
      if !Within(sizeAt(mid), target, tolerance) {
        var t := Narrow(s, sizeAt(mid), target);
        SearchBounds(t, n - 1, sizeAt, target, tolerance);
        var rest := SearchFrom(t, n - 1, sizeAt, target, tolerance).probes;
        assert forall i :: 1 <= i < |rest| + 1 ==> ([mid] + rest)[i] == rest[i - 1];
      }
    }
  }

  /** Only the last probe can be within the tolerance, and when it is, it is
      the answer. */
  lemma {:induction false} SearchStopsOnHit(s: SearchState, n: nat, sizeAt: SizeAt, target: nat, tolerance: real)
    requires InRange(s)
    ensures var o := SearchFrom(s, n, sizeAt, target, tolerance);
      && (forall i :: 0 <= i < |o.probes| - 1 ==> !Within(sizeAt(o.probes[i]), target, tolerance))
      && (|o.probes| > 0 && Within(sizeAt(o.probes[|o.probes| - 1]), target, tolerance) ==>
            o.quality == o.probes[|o.probes| - 1])
    decreases n
  {
    if n > 0 {
      var mid := Mid(s);
      SearchStep(s, n, sizeAt, target, tolerance);
      if !Within(sizeAt(mid), target, tolerance) {
        var t := Narrow(s, sizeAt(mid), target);
        SearchStopsOnHit(t, n - 1, sizeAt, target, tolerance);
        var r := SearchFrom(t, n - 1, sizeAt, target, tolerance);
        var o := SearchFrom(s, n, sizeAt, target, tolerance);
        assert o.probes == [mid] + r.probes && o.quality == r.quality;
        forall i | 0 <= i < |o.probes| - 1
          ensures !Within(sizeAt(o.probes[i]), target, tolerance)
        {
          if i > 0 {
            assert o.probes[i] == r.probes[i - 1];
          }
        }
        if |r.probes| > 0 {
          assert o.probes[|o.probes| - 1] == r.probes[|r.probes| - 1];
        }
      }
    }
  }

  /** Without a hit the search uses every probe and answers with the last
      probe that was not too large, or the starting best. */
  lemma {:induction false} SearchWithoutHit(s: SearchState, n: nat, sizeAt: SizeAt, target: nat, tolerance: real)
    requires InRange(s)
    ensures var o := SearchFrom(s, n, sizeAt, target, tolerance);
      (|o.probes| == 0 || !Within(sizeAt(o.probes[|o.probes| - 1]), target, tolerance) ==>
         |o.probes| == n && o.quality == LastFitting(o.probes, sizeAt, target, s.best))
    decreases n
  {
    if n > 0 {
      var mid := Mid(s);
      SearchStep(s, n, sizeAt, target, tolerance);
      if !Within(sizeAt(mid), target, tolerance) {
        var t := Narrow(s, sizeAt(mid), target);
        SearchWithoutHit(t, n - 1, sizeAt, target, tolerance);
        var r := SearchFrom(t, n - 1, sizeAt, target, tolerance);
        var o := SearchFrom(s, n, sizeAt, target, tolerance);
        assert o == Outcome(r.quality, [mid] + r.probes);
        if |r.probes| > 0 {
          assert o.probes[|o.probes| - 1] == r.probes[|r.probes| - 1];
        }
        if !Within(sizeAt(o.probes[|o.probes| - 1]), target, tolerance) {
          assert |r.probes| == n - 1 && r.quality == LastFitting(r.probes, sizeAt, target, t.best);
          LastFittingAfter(mid, r.probes, sizeAt, target, s.best);
        }
      }
    }
  }

  /** What `_binary_search_jpeg_quality` promises: at most ten probes, the
      first at 82; the first probe within the tolerance is returned, otherwise
      the last probe that was not too large, otherwise 85. Every probe and the
      answer lie in [69, 95]. */
  lemma SearchGuarantees(sizeAt: SizeAt, target: nat, tolerance: real)
    ensures var o := SearchFrom(START, MAX_ITERATIONS, sizeAt, target, tolerance);
      && 1 <= |o.probes| <= MAX_ITERATIONS && o.probes[0] == 82
      && (forall i :: 0 <= i < |o.probes| ==> LOW_START - 1 <= o.probes[i] <= HIGH_START)
      && LOW_START - 1 <= o.quality <= HIGH_START
      && (forall i :: 0 <= i < |o.probes| - 1 ==> !Within(sizeAt(o.probes[i]), target, tolerance))
      && (Within(sizeAt(o.probes[|o.probes| - 1]), target, tolerance) ==>
            o.quality == o.probes[|o.probes| - 1])
      && (!Within(sizeAt(o.probes[|o.probes| - 1]), target, tolerance) ==>
            |o.probes| == MAX_ITERATIONS && o.quality == LastFitting(o.probes, sizeAt, target, BEST_START))
  {
    SearchBounds(START, MAX_ITERATIONS, sizeAt, target, tolerance);
    SearchStopsOnHit(START, MAX_ITERATIONS, sizeAt, target, tolerance);
    SearchWithoutHit(START, MAX_ITERATIONS, sizeAt, target, tolerance);
  }

  /** `_binary_search_jpeg_quality`, which also reports the qualities it
      probed: the tolerance is `target_size * size_tolerance` bytes. */
  method BinarySearchQuality(target: nat, sizeTolerance: real, sizeAt: SizeAt)
    returns (quality: int, probes: seq<int>)
    ensures Outcome(quality, probes) == SearchFrom(START, MAX_ITERATIONS, sizeAt, target, target as real * sizeTolerance)
  {
    quality, probes := SearchLoop(target, target as real * sizeTolerance, sizeAt);
  }

  /** The loop of `_binary_search_jpeg_quality` for a given tolerance in
      bytes: it computes exactly the reference search. */
  method SearchLoop(target: nat, tolerance: real, sizeAt: SizeAt)
    returns (quality: int, probes: seq<int>)
    ensures Outcome(quality, probes) == SearchFrom(START, MAX_ITERATIONS, sizeAt, target, tolerance)
  {
    var s := START;
    probes := [];
    ghost var full := SearchFrom(START, MAX_ITERATIONS, sizeAt, target, tolerance);
    ghost var remaining := full;
    assert [] + full.probes == full.probes;
    var i := 0;
    while i < MAX_ITERATIONS
      invariant 0 <= i <= MAX_ITERATIONS
      invariant InRange(s)
      invariant remaining == SearchFrom(s, MAX_ITERATIONS - i, sizeAt, target, tolerance)
      invariant full == Prepend(probes, remaining)
    {
      var mid := Mid(s);
      var size := sizeAt(mid);
      SearchStep(s, MAX_ITERATIONS - i, sizeAt, target, tolerance);
      if Within(size, target, tolerance) {
        return mid, probes + [mid];
      }
      var next := Narrow(s, size, target);
      ghost var rest := SearchFrom(next, MAX_ITERATIONS - (i + 1), sizeAt, target, tolerance);
      PrependProbed(probes, mid, rest);
      probes, s, i, remaining := probes + [mid], next, i + 1, rest;
    }
    assert remaining == Outcome(s.best, []);
    assert probes + [] == probes;
    return s.best, probes;
  }

  /** One probe of the reference search: a hit ends it, a miss narrows. */
  lemma SearchStep(s: SearchState, n: nat, sizeAt: SizeAt, target: nat, tolerance: real)
    requires InRange(s) && n > 0
    ensures var mid := Mid(s);
      && (Within(sizeAt(mid), target, tolerance) ==>
            SearchFrom(s, n, sizeAt, target, tolerance) == Outcome(mid, [mid]))
      && (!Within(sizeAt(mid), target, tolerance) ==>
            SearchFrom(s, n, sizeAt, target, tolerance)
            == Probed(mid, SearchFrom(Narrow(s, sizeAt(mid), target), n - 1, sizeAt, target, tolerance)))
  {
  }

  /** The floor of 70 is not a bound on the answer: when every quality from 70
      up encodes larger than the target and 69 encodes far smaller, the search
      ends on 69. */
  lemma SearchCanReturn69()
    ensures SearchFrom(START, MAX_ITERATIONS, q => if q >= 70 then 1000 else 0, 500, 0.0).quality == 69
  {
    var f: SizeAt := q => if q >= 70 then 1000 else 0;
    var s1 := SearchState(70, 81, 85);
    var s2 := SearchState(70, 74, 85);
    var s3 := SearchState(70, 71, 85);
    var s4 := SearchState(70, 69, 85);
    var s5 := SearchState(70, 69, 69);
    assert Narrow(START, f(82), 500) == s1;
    assert Narrow(s1, f(75), 500) == s2;
    assert Narrow(s2, f(72), 500) == s3;
    assert Narrow(s3, f(70), 500) == s4;
    assert Narrow(s4, f(69), 500) == s5;
    assert Narrow(s5, f(69), 500) == s5;
    assert SearchFrom(s5, 5, f, 500, 0.0).quality == 69 by {
      assert SearchFrom(s5, 0, f, 500, 0.0).quality == 69;
      assert SearchFrom(s5, 1, f, 500, 0.0).quality == 69;
      assert SearchFrom(s5, 2, f, 500, 0.0).quality == 69;
      assert SearchFrom(s5, 3, f, 500, 0.0).quality == 69;
      assert SearchFrom(s5, 4, f, 500, 0.0).quality == 69;
    }
    assert SearchFrom(s4, 6, f, 500, 0.0).quality == 69;
    assert SearchFrom(s3, 7, f, 500, 0.0).quality == 69;
    assert SearchFrom(s2, 8, f, 500, 0.0).quality == 69;
    assert SearchFrom(s1, 9, f, 500, 0.0).quality == 69;
  }
}

=== FILE: path_names.dfy ===
/** The part of Python's `pathlib` the embedder relies on to name its output
    files: a path as a list of components, its `name`, `parent`, `stem` and
    `suffix`, and the `<stem>_watermarked<suffix>` naming rule. */
module PathNames {
  import opened Common

  /** A path as its components; the empty list is `Path(".")`. */
  datatype Path = Path(parts: seq<string>)

  const WATERMARKED := "_watermarked"

  function Name(p: Path): string {
    if |p.parts| == 0 then "" else p.parts[|p.parts| - 1]
  }

  function Parent(p: Path): Path {
    if |p.parts| == 0 then p else Path(p.parts[..|p.parts| - 1])
  }

  /** `dir / name`. */
  function Join(dir: Path, name: string): (r: Path)
    ensures Name(r) == name && Parent(r) == dir
  {
    assert (dir.parts + [name])[..|dir.parts|] == dir.parts;
    Path(dir.parts + [name])
  }

  /** Position of the last '.' in `s`, or -1. */
  function LastDot(s: string): int {
    LastIndex(s, '.')
  }

  /** The last dot starts a suffix only when it is neither the first nor the
      last character of the name. */
  predicate HasSuffix(name: string) {
    0 < LastDot(name) < |name| - 1
  }

  function Suffix(name: string): (r: string)
    ensures HasSuffix(name) ==> |r| >= 2 && r[0] == '.' && forall j :: 1 <= j < |r| ==> r[j] != '.'
    ensures !HasSuffix(name) ==> r == ""
  {
    if HasSuffix(name) then name[LastDot(name)..] else ""
  }

  function Stem(name: string): (r: string)
    ensures HasSuffix(name) ==> |r| > 0
    ensures r + Suffix(name) == name
  {
    if HasSuffix(name) then name[..LastDot(name)] else name
  }

  /** `f"{stem}_watermarked{suffix}"`. */
  function WatermarkedName(name: string): (r: string)
    ensures |r| == |name| + |WATERMARKED|
    ensures r != name
    // a name without a suffix ("photo", ".bashrc", "a.") gains the marker at its end
    ensures !HasSuffix(name) ==> r == name + WATERMARKED
  {
    Stem(name) + WATERMARKED + Suffix(name)
  }

  /** Renaming keeps a real suffix: "photo.jpg" becomes "photo_watermarked.jpg",
      whose stem is the old stem plus "_watermarked" and whose suffix is ".jpg". */
  lemma {:induction false} WatermarkedKeepsSuffix(name: string)
    requires HasSuffix(name)
    ensures Suffix(WatermarkedName(name)) == Suffix(name)
    ensures Stem(WatermarkedName(name)) == Stem(name) + WATERMARKED
  {
    var stem, suffix := Stem(name), Suffix(name);
    var r := WatermarkedName(name);
    var k := |stem| + |WATERMARKED|;
    assert r == (stem + WATERMARKED) + suffix;
    assert r[k] == suffix[0] == '.';
    assert forall j :: k < j < |r| ==> r[j] == suffix[j - k];
    LastIndexUnique(r, '.', k);
    assert HasSuffix(r);
    assert r[k..] == suffix;
    assert r[..k] == stem + WATERMARKED;
  }

  /** A name that ends in a dot has no suffix, so the rename moves the dot
      into the stem and the new name's suffix is "._watermarked". */
  lemma TrailingDotRename()
    ensures WatermarkedName("a.") == "a._watermarked"
    ensures Suffix(WatermarkedName("a.")) == "._watermarked"
  {
    assert LastDot("a.") == 1;
    assert !HasSuffix("a.");
    var r := "a._watermarked";
    LastIndexUnique(r, '.', 1);
  }

  /** The default output of `embed`: next to the input, renamed. */
  function DefaultOutput(input: Path): (out: Path)
    ensures Parent(out) == Parent(input)
    ensures Name(out) == WatermarkedName(Name(input))
    ensures out != input
  {
    Join(Parent(input), WatermarkedName(Name(input)))
  }

  /** The output of `embed_batch` with an output directory: inside it, renamed. */
  function BatchOutput(dir: Path, input: Path): (out: Path)
    ensures Parent(out) == dir
    ensures Name(out) == Name(DefaultOutput(input))
  {
    Join(dir, WatermarkedName(Name(input)))
  }
}

=== FILE: py_client.dfy ===
/** The Python client (`truthmark_sdk/client.py`): the stored base URL and
    headers, the requests `encode` and `decode` send through `requests`, and
    the rule that adds `output_path` to an encode result. Codes from 400 to
    599 raise; every other response body is parsed. */
module PyClient {
  import opened Common
  import opened Http

  const DEFAULT_BASE_URL := "https://truthmark-api.onrender.com"
  const OUTPUT_PATH := "output_path"
  const DOWNLOAD_URL := "download_url"

  datatype Client = Client(baseUrl: string, apiKey: string, headers: map<string, string>)

  /** `TruthMarkClient(api_key, base_url)`: trailing slashes are stripped and
      the bearer header is fixed whatever the key, even an empty one. */
  function NewClient(apiKey: string, baseUrl: string): (c: Client)
    ensures c.baseUrl <= baseUrl
    ensures |c.baseUrl| == 0 || c.baseUrl[|c.baseUrl| - 1] != '/'
    ensures forall j :: |c.baseUrl| <= j < |baseUrl| ==> baseUrl[j] == '/'
    ensures c.headers == map[AUTHORIZATION := BEARER + apiKey]
  {
    Client(RStrip(baseUrl, '/'), apiKey, map[AUTHORIZATION := BEARER + apiKey])
  }

  /** `TruthMarkClient(api_key)`: the hosted API, whose default URL has no
      trailing slash to strip. */
  function NewDefaultClient(apiKey: string): (c: Client)
    ensures c.baseUrl == DEFAULT_BASE_URL
    ensures c.apiKey == apiKey && c.headers == map[AUTHORIZATION := BEARER + apiKey]
  {
    NewClient(apiKey, DEFAULT_BASE_URL)
  }

  /** Rebuilding a client from its stored URL changes nothing. */
  lemma NewClientIdempotent(apiKey: string, baseUrl: string)
    ensures var c := NewClient(apiKey, baseUrl);
      NewClient(apiKey, c.baseUrl) == c
  {
    RStripIdempotent(baseUrl, '/');
  }

  /** The filename `requests` gives the file part: the base name of the path
      the file was opened with, unless that path looks like "<...>" at either
      end or the base name is empty, in which case the field name "file". */
  function FileName(path: string): (name: string)
    ensures name != ""
    ensures name == "file" || forall j :: 0 <= j < |name| ==> name[j] != '/'
    ensures (path != "" && path[0] != '<' && path[|path| - 1] != '>' &&
             forall j :: 0 <= j < |path| ==> path[j] != '/') ==> name == path
    // the base name of an ordinary path; the field name when the path looks
    // like "<...>", is empty, or ends in '/' so that its base name is empty
    ensures path != "" && path[0] != '<' && path[|path| - 1] != '>' && path[|path| - 1] != '/' ==>
              LastElement(path, '/', name)
    ensures path == "" || path[0] == '<' || path[|path| - 1] == '>' || path[|path| - 1] == '/' ==>
              name == "file"
  {
    if path != "" && path[0] != '<' && path[|path| - 1] != '>' then
      var base := AfterLast(path, '/');
      assert (forall j :: 0 <= j < |path| ==> path[j] != '/') ==> LastIndex(path, '/') == -1;
      if base != "" then base else "file"
    else "file"
  }

  /** The form `requests` encodes from `data` and `files`: the data fields
      come first, so the message precedes the file when encoding. */
  function DataFirstForm(filename: string, message: Option<string>): (parts: seq<Part>)
    ensures message.None? ==> parts == [FilePart("file", filename)]
    ensures message.Some? ==> parts == [FieldPart("message", message.value), FilePart("file", filename)]
  {
    (if message.Some? then [FieldPart("message", message.value)] else []) + [FilePart("file", filename)]
  }

  /** Python sends the same parts as the Go and Java clients, with the
      message moved in front of the file. */
  lemma DataFirstFormReorders(filename: string, message: Option<string>)
    ensures multiset(DataFirstForm(filename, message)) == multiset(Form(filename, message))
    ensures message.None? ==> DataFirstForm(filename, message) == Form(filename, message)
    ensures message.Some? ==>
      var form := Form(filename, message);
      DataFirstForm(filename, message) == [form[1], form[0]]
  {
    var form := Form(filename, message);
    if message.Some? {
      assert form == [form[0]] + [form[1]];
      assert DataFirstForm(filename, message) == [form[1]] + [form[0]];
    }
  }

  /** The request `encode` (a message) or `decode` (none) sends. */
  function BuildRequest(c: Client, path: string, message: Option<string>): (r: Request)
    ensures r.verb == POST && r.url == c.baseUrl + Endpoint(message)
    ensures r.parts == DataFirstForm(FileName(path), message)
    ensures r.headers == c.headers
  {
    Request(POST, c.baseUrl + Endpoint(message), DataFirstForm(FileName(path), message), c.headers)
  }

  /** Every request of a client built by `NewClient` carries the bearer
      header, whatever the key. */
  lemma AlwaysSendsBearer(apiKey: string, baseUrl: string, path: string, message: Option<string>)
    ensures SendsBearer(BuildRequest(NewClient(apiKey, baseUrl), path, message), apiKey)
  {
  }

  /** `raise_for_status` raises for client and server errors only. */
  predicate RaisesForStatus(status: int) {
    400 <= status < 600
  }

  /** `response.json()` after `raise_for_status`. */
  function Receive(resp: Response): (r: Result<Value, ClientError>)
    ensures RaisesForStatus(resp.status) ==> r == Err(StatusFailed(resp.status))
    ensures r.Ok? <==> !RaisesForStatus(resp.status) && resp.body.Parsed?
    ensures r.Ok? ==> r.value == resp.body.value
  {
    if RaisesForStatus(resp.status) then Err(StatusFailed(resp.status))
    else if resp.body.Parsed? then Ok(resp.body.value)
    else Err(ParseFailed)
  }

  /** `if output_path`: given, and not the empty string. */
  predicate Given(outputPath: Option<string>) {
    outputPath.Some? && outputPath.value != ""
  }

  /** Python's `'download_url' in result` on whatever JSON came back: a key
      of an object, an element of a list, a substring of a string; any other
      value raises `TypeError`. */
  function HasDownloadUrl(v: Value): (r: Result<bool, ClientError>)
    ensures v.Obj? ==> r == Ok(DOWNLOAD_URL in v.fields)
    ensures v.List? ==> r == Ok(Str(DOWNLOAD_URL) in v.items)
    ensures v.Str? ==> r == Ok(Contains(v.s, DOWNLOAD_URL))
    ensures r.Err? <==> !(v.Obj? || v.List? || v.Str?)
  {
    match v
    case Obj(fields) => Ok(DOWNLOAD_URL in fields)
    case List(items) => Ok(Str(DOWNLOAD_URL) in items)
    case Str(s) => Ok(Contains(s, DOWNLOAD_URL))
    case _ => Err(TypeFailed)
  }

  /** The step after a successful response: with a truthy `output_path` and a
      "download_url" in the result, the image at that URL is downloaded (a
      failed download is only printed) and `output_path` is recorded;
      indexing a list or a string by "download_url" raises `TypeError`. The
      second component is the download started, as (URL, destination). */
  function AfterResponse(result: Value, outputPath: Option<string>)
    : (r: (Result<Value, ClientError>, Option<(Value, string)>))
    ensures r.1.Some? <==> Given(outputPath) && result.Obj? && DOWNLOAD_URL in result.fields
    ensures r.1.Some? ==> && r.1.value == (result.fields[DOWNLOAD_URL], outputPath.value)
                          && r.0 == Ok(Obj(result.fields[OUTPUT_PATH := Str(outputPath.value)]))
    ensures r.1.None? && r.0.Ok? ==> r.0 == Ok(result)
    ensures r.0.Err? <==> Given(outputPath) && HasDownloadUrl(result) != Ok(false) && !result.Obj?
    ensures r.0.Err? ==> r.0.error == TypeFailed
  {
    if !Given(outputPath) then (Ok(result), None)
    else
      match HasDownloadUrl(result)
      case Err(e) => (Err(e), None)
      case Ok(false) => (Ok(result), None)
      case Ok(true) =>
        match result
        case Obj(fields) =>
          (Ok(Obj(fields[OUTPUT_PATH := Str(outputPath.value)])), Some((fields[DOWNLOAD_URL], outputPath.value)))
        case _ => (Err(TypeFailed), None)
  }

  /** The part `encode` and `decode` share: a missing path raises
      `ValueError` and an unopenable one fails in `open`, both before any
      request; then the transport, `raise_for_status` and `response.json()`. */
  function Post(c: Client, path: string, message: Option<string>, file: FileState,
                send: Transport): (o: Outcome<Value>)
    ensures file != Readable <==> o.sent.None?
    ensures file == Missing ==> o.result == Err(FileNotFound(path))
    ensures file == Unreadable ==> o.result == Err(FileUnreadable(path))
    ensures file == Readable ==> o.sent == Some(BuildRequest(c, path, message))
    ensures file == Readable && send(o.sent.value).Err? ==>
              o.result == Err(TransportFailed(send(o.sent.value).error))
    ensures file == Readable && send(o.sent.value).Ok? ==> o.result == Receive(send(o.sent.value).value)
  {
    match file
    case Missing => Outcome(None, Err(FileNotFound(path)))
    case Unreadable => Outcome(None, Err(FileUnreadable(path)))
    case Readable =>
      var req := BuildRequest(c, path, message);
      match send(req)
      case Err(reason) => Outcome(Some(req), Err(TransportFailed(reason)))
      case Ok(resp) => Outcome(Some(req), Receive(resp))
  }

  /** What `encode` returns or raises, and the download it starts, if any. */
  datatype EncodeOutcome = EncodeOutcome(call: Outcome<Value>, download: Option<(Value, string)>)

  /** `encode(image_path, message, output_path)`. */
  function Encode(c: Client, path: string, message: string, outputPath: Option<string>,
                  file: FileState, send: Transport): (o: EncodeOutcome)
    ensures var p := Post(c, path, Some(message), file, send);
      && o.call.sent == p.sent
      && (p.result.Err? ==> o.call.result == p.result && o.download.None?)
      && (p.result.Ok? ==> (o.call.result, o.download) == AfterResponse(p.result.value, outputPath))
  {
    var p := Post(c, path, Some(message), file, send);
    if p.result.Err? then EncodeOutcome(p, None)
    else
      var after := AfterResponse(p.result.value, outputPath);
      EncodeOutcome(Outcome(p.sent, after.0), after.1)
  }

  /** `decode(image_path)`: the same request without a message field, to the
      decode endpoint, and the server's JSON as is. */
  function Decode(c: Client, path: string, file: FileState, send: Transport): (o: Outcome<Value>)
    ensures o.sent.Some? ==> o.sent.value.url == c.baseUrl + DECODE_PATH && |o.sent.value.parts| == 1
    ensures o == Post(c, path, None, file, send)
  {
    Post(c, path, None, file, send)
  }

  /** Without an output path, `encode` returns exactly what the server sent
      and downloads nothing. */
  lemma EncodeWithoutOutputPath(c: Client, path: string, message: string, file: FileState, send: Transport)
    ensures var o := Encode(c, path, message, None, file, send);
      o.call == Post(c, path, Some(message), file, send) && o.download.None?
  {
  }

  /** A download is started exactly when the server answered an object with
      a "download_url" and an output path was given; the returned result
      then names that path, and nothing else in it changes. */
  lemma DownloadIffRecorded(c: Client, path: string, message: string, outputPath: Option<string>,
                            file: FileState, send: Transport)
    ensures var o := Encode(c, path, message, outputPath, file, send);
      var p := Post(c, path, Some(message), file, send);
      && (o.download.Some? <==>
            p.result.Ok? && p.result.value.Obj? && DOWNLOAD_URL in p.result.value.fields
            && Given(outputPath))
      && (o.download.Some? ==>
            && o.call.result.Ok? && o.call.result.value.Obj?
            && OUTPUT_PATH in o.call.result.value.fields
            && o.call.result.value.fields[OUTPUT_PATH] == Str(outputPath.value)
            && (forall k :: k in p.result.value.fields && k != OUTPUT_PATH ==>
                  k in o.call.result.value.fields
                  && o.call.result.value.fields[k] == p.result.value.fields[k]))
  {
    var p := Post(c, path, Some(message), file, send);
    var o := Encode(c, path, message, outputPath, file, send);
    if p.result.Ok? {
      EncodeRunsAfterResponse(c, path, message, outputPath, file, send);
      var after := AfterResponse(p.result.value, outputPath);
      assert o.download == after.1 && o.call.result == after.0;
      if after.1.Some? {
        var fields := p.result.value.fields;
        assert o.call.result.value.fields == fields[OUTPUT_PATH := Str(outputPath.value)];
      }
    } else {
      assert o.download.None?;
    }
  }

  /** After a successful request, `encode`'s outcome is what the step after
      the response makes of it. */
  lemma EncodeRunsAfterResponse(c: Client, path: string, message: string, outputPath: Option<string>,
                                file: FileState, send: Transport)
    requires Post(c, path, Some(message), file, send).result.Ok?
    ensures var p := Post(c, path, Some(message), file, send);
      var after := AfterResponse(p.result.value, outputPath);
      Encode(c, path, message, outputPath, file, send) == EncodeOutcome(Outcome(p.sent, after.0), after.1)
  {
  }

  /** A response that is a JSON list or string containing "download_url"
      makes `encode` with an output path raise `TypeError`. */
  lemma ListWithDownloadUrlRaises(outputPath: string)
    requires outputPath != ""
    ensures AfterResponse(List([Str(DOWNLOAD_URL)]), Some(outputPath)).0 == Err(TypeFailed)
  {
  }
}
